=== FILE: README.md ===
# genencoder in Dafny

A model of the generator-based circuit encoding of `genencoder`
(`src/genencoder/genencoder.py`) and proofs about it.

- `CircuitGenEncoder` turns a quantum circuit into a string. It first compiles
  every Hadamard gate into three rotations. Then, for each gate, it writes one
  self-terminating token per non-trivial Pauli string of the gate's generator:
  `<prefix><angle separator><coefficient><pauli letters><gate separator>`.
- A numeric angle is folded into the coefficient, and the prefix stays empty.
- A symbolic angle becomes the prefix.
- The coefficient is reduced into [0, 4π) before it is printed.
- Decoding splits on the gate separator and skips blank fragments. It splits
  each fragment on the angle separator and resolves the prefix by a fixed
  policy. The rest is read as exactly one Pauli string.
- `prune_circuit` drops rotations whose reduced angle is within a tolerance of 0.
- `CircuitGenerator` builds connectivity maps (`all_to_all`, `local_line`,
  `local_ring`) and normalises generator names.

Files, one module each:

- `results.dfy` (`Results`): `Option`, `Result`, and `MapAll`, a loop that stops at the first failure.
- `seqs.dfy` (`Seqs`): `Keep`, the order-preserving filter `[x for x in s if p(x)]`, with its laws, and the laws of list functions built one element at a time.
- `text.dfy` (`Text`): Python's `str.split`, `join`, `strip`, ASCII `lower`/`upper`, and split/join round trips.
- `angles.dfy` (`Angles`): `numpy.pi`, `fix_periodicity`, and the near-zero test.
- `circuits.dfy` (`Circuits`): gates, angle expressions, Pauli strings, and the library calls as a record of functions.
- `compiler.dfy` (`Compiler`): `compile` and `prune_circuit`.
- `codec.dfy` (`Codec`): `encode`, `encode_paulistring`, `decode`, `decode_paulistring`.
- `roundtrip.dfy` (`RoundTrip`): what `decode` recovers from `encode`.
- `connectivity.dfy` (`Connectivity`): `make_connectivity_map`.
- `generators.dfy` (`GeneratorNames`): the generator list of `CircuitGenerator`, as written and with the corrected normalisation (see Findings).

The library calls are fields of `Circuits.Library`. Their source is not part
of this model. They are `make_generator`, `str(ps.naked())`,
`QubitHamiltonian.from_string`, `float`, `"{:2.4f}".format` and `str` of a
list of variables. The round trip assumes a few laws about them, stated in
`RoundTrip.Laws`. For example, a formatted coefficient followed by rendered
Pauli letters reads back as that one Pauli string, with its coefficient within
half a unit of the fourth decimal.

Two details of `prune_circuit` shape its model:

- It calls `gate.parameter(variables)` without a `try`, so an angle that
  cannot be resolved raises at the first such gate. `Compiler.Prune` returns
  an error naming that gate's variables.
- `numpy.isclose(angle, 0.0, atol=threshold)` compares with 0 only, so a
  reduced angle just below 4π is kept (`Compiler.PruneOnlyNearZero`).

## Model

| member | source | states |
|---|---|---|
| Text.Split | src/genencoder/genencoder.py:80 | `str.split(sep)`: at least one piece, the pieces joined by `sep` give back the string, no piece contains `sep`, and every piece but the last is cut at the leftmost occurrence of `sep` |
| Text.SplitCharacterised | src/genencoder/genencoder.py:80 | the split is the only piece list that joins back to the string, with a separator-free last piece and every other piece cut at the leftmost occurrence |
| Text.SplitJoin | src/genencoder/genencoder.py:80 | splitting pieces joined by a separator gives back the pieces when every piece but the last is delimited by the separator and the last does not contain it |
| Text.SplitAppendSeparator | src/genencoder/genencoder.py:80 | splitting with one more one-character separator at the end adds exactly one empty piece |
| Text.Strip | src/genencoder/genencoder.py:83 | `str.strip()`: a slice of the input; everything removed is whitespace; the result neither starts nor ends with whitespace |
| Text.StripIdempotent | src/genencoder/genencoder.py:83 | stripping twice is stripping once |
| Angles.FixPeriodicity | src/genencoder/genencoder.py:120-124 | the result lies in [0, 4π) and differs from the input by a whole number of periods |
| Angles.FixPeriodicityUnique | src/genencoder/genencoder.py:120-124 | the result is the only value in [0, 4π) in the input's phase class |
| Angles.FixPeriodicityIdempotent | src/genencoder/genencoder.py:120-124 | reducing a reduced angle changes nothing |
| Angles.FixPeriodicityPeriodic | src/genencoder/genencoder.py:120-124 | adding whole periods of 4π does not change the result |
| Angles.CorrectionUnreachable | src/genencoder/genencoder.py:121-123 | the remainder by 4π is never negative, so the `angle < 0` correction never applies |
| Circuits.Names | src/genencoder/genencoder.py:63 | `extract_variables()`: each variable of the angle exactly once |
| Circuits.Resolve | src/genencoder/genencoder.py:60-63 | the angle resolves exactly when every variable it refers to is supplied; otherwise the failure reports all of them, at least one, without repeats |
| Compiler.Compile | src/genencoder/genencoder.py:37-52 | the output is two gates longer per H gate and contains no H gate |
| Compiler.CompilePositions | src/genencoder/genencoder.py:41-50 | input gate i lands at i plus twice the H gates before it; an H gate (any case of `h`) becomes Ry(-π/4), Rz(angle·π, same target and control), Ry(π/4) there; any other gate is copied there unchanged |
| Compiler.CompileAppend | src/genencoder/genencoder.py:41-52 | compiling a concatenation is concatenating the compiled parts |
| Compiler.CompileIdentity | src/genencoder/genencoder.py:49-50 | a circuit without H gates compiles to itself |
| Compiler.CompileIdempotent | src/genencoder/genencoder.py:41-52 | compiling a compiled circuit changes nothing |
| Compiler.Prune | src/genencoder/genencoder.py:126-137 | succeeds exactly when every angle can be evaluated, and then returns the survivors; otherwise reports the names of the first gate whose angle cannot be evaluated |
| Compiler.PruneOnlyNearZero | src/genencoder/genencoder.py:130-131 | for an angle in [0, 4π) the gate is dropped exactly when the angle is at most the threshold |
| Compiler.PruneIdempotent | src/genencoder/genencoder.py:126-137 | pruning the survivors again drops nothing |
| Compiler.PruneKeepsOrder | src/genencoder/genencoder.py:126-137 | the k-th survivor is the k-th input gate that survives: an order-preserving subsequence that keeps exactly the surviving gates, including every gate without an angle |
| Codec.GateAngle | src/genencoder/genencoder.py:59-69 | 1.0 for a gate without an angle; numeric exactly when the variables resolve it, with the evaluated value; otherwise the variable's name if there is one, or the rendered name list |
| Codec.EncodePauliString | src/genencoder/genencoder.py:99-109 | a numeric angle gives an empty prefix, the angle separator, then the reduced coefficient times angle; a symbolic angle gives its text, the angle separator, then the reduced coefficient alone; every token ends with the gate separator |
| Codec.Encode | src/genencoder/genencoder.py:54-77 | the output is the tokens of the compiled circuit's terms: per gate in order, one per non-trivial Pauli string of its generator in order |
| Codec.EncodeGate | src/genencoder/genencoder.py:58-75 | the tokens written for one gate are those of its terms: one per non-trivial Pauli string of its generator, in order, with the gate's angle |
| Codec.TermsAppend | src/genencoder/genencoder.py:57-75 | the terms of a concatenation of circuits are the terms of the parts, in order |
| Codec.RenderTermsAppend | src/genencoder/genencoder.py:56-75 | rendering concatenated terms writes the parts' tokens in order |
| Codec.EncodeAppend | src/genencoder/genencoder.py:54-77 | encoding a concatenation of circuits is concatenating their encodings |
| Codec.Fragments | src/genencoder/genencoder.py:80-85 | the fragments `decode` reads are non-blank and already stripped |
| Codec.ResolvePrefix | src/genencoder/genencoder.py:87-94 | a prefix that parses as a number gives that number; otherwise a blank stripped prefix gives 1.0, a supplied name gives its value, any other name is kept as a symbol |
| Codec.DecodePaulistring | src/genencoder/genencoder.py:111-114 | succeeds exactly when the text reads as exactly one Pauli string, which it returns; unreadable text is a syntax error, and text that reads as zero or several Pauli strings is a term-count error (the `assert len(ps) == 1`) |
| Codec.DecodeFragment | src/genencoder/genencoder.py:86-96 | a fragment that does not split into exactly two parts on the angle separator is an error; otherwise it decodes exactly when its Pauli text does, with the resolved prefix as the angle, and a Pauli-text error is passed on unchanged |
| Results.MapAll | src/genencoder/genencoder.py:86-96 | applying a failing step to each element in order succeeds exactly when every step does, with the i-th result from the i-th element; otherwise it gives the first failure's error |
| Codec.DecodeAll | src/genencoder/genencoder.py:82-96 | succeeds exactly when every fragment decodes; the i-th gate is the i-th fragment's; a failure is the error of the first fragment that does not decode |
| Codec.DecodeEqualSeparators | src/genencoder/genencoder.py:80-86 | with equal separators, any text with a non-blank fragment fails on its first fragment, which splits into one part only |
| Codec.Decode | src/genencoder/genencoder.py:79-97 | succeeds exactly when every non-blank stripped fragment decodes, with one gate per fragment in order; otherwise fails with the error of the first fragment that does not decode |
| RoundTrip.TokenIsBody | src/genencoder/genencoder.py:99-109 | a token is its body followed by the gate separator; the body's fields are the prefix, the formatted reduced coefficient and the rendered letters |
| RoundTrip.RenderTermsJoin | src/genencoder/genencoder.py:99-109 | the encoding is the token bodies joined by the gate separator, with an empty last piece |
| RoundTrip.SplitRendered | src/genencoder/genencoder.py:80-85 | splitting an encoding on the gate separator gives back the bodies in order and one trailing empty piece |
| RoundTrip.FragmentsRendered | src/genencoder/genencoder.py:80-85 | the fragments of an encoding are exactly its token bodies, in order |
| RoundTrip.FieldsSplit | src/genencoder/genencoder.py:86 | a body splits on the angle separator into exactly its prefix and its coefficient-and-letters text |
| RoundTrip.BodyShape | src/genencoder/genencoder.py:83-86 | the body of a readable term has no gate separator, is non-blank, is already stripped, and splits into its prefix and the rest |
| RoundTrip.PrefixRoundTrip | src/genencoder/genencoder.py:87-94 | the prefix written for a term reads back as 1.0 for a numeric angle, and as the supplied value or the symbol for a symbolic one |
| RoundTrip.PauliTextRoundTrip | src/genencoder/genencoder.py:108-114 | the written coefficient and letters read back as one Pauli string with the same letters and the coefficient within printing precision |
| RoundTrip.DecodeBody | src/genencoder/genencoder.py:86-96 | the body of a readable term decodes to a gate that recovers the term |
| RoundTrip.DecodeRendered | src/genencoder/genencoder.py:79-109 | decoding rendered readable terms succeeds, with one gate per term, in order, each recovering its term |
| RoundTrip.CompileKeepsNames | src/genencoder/genencoder.py:41-50 | compiling introduces no variable names |
| RoundTrip.TermsReadable | src/genencoder/genencoder.py:57-75 | every term of a circuit with proper variable names is readable: non-trivial, with a proper symbolic text |
| RoundTrip.EncodeDecode | src/genencoder/genencoder.py:54-97 | decoding an encoding succeeds, with one gate per non-trivial Pauli string of the compiled circuit, in order; each has its letters, its reduced coefficient up to printing precision, and angle 1.0, the supplied value or the symbol |
| RoundTrip.DecodeTrailingSeparator | src/genencoder/genencoder.py:80-85 | for a one-character gate separator (any angle separator), a trailing gate separator adds no fragment and does not change the decoded circuit |
| Connectivity.AllToAll | src/genencoder/genencoder.py:225 | the qubits are 0..n-1, and each is coupled with exactly every other qubit |
| Connectivity.AllToAllNeighbours | src/genencoder/genencoder.py:225 | qubit k's neighbours are 0..k-1 then k+1..n-1: n-1 of them, increasing |
| Connectivity.AllToAllSymmetric | src/genencoder/genencoder.py:225 | coupling goes both ways |
| Connectivity.LocalRing | src/genencoder/genencoder.py:229 | the qubits are 0..n-1; qubit k's two neighbours are the next qubit (0 after the last) and the previous one (the last before 0) |
| Connectivity.LocalRingSymmetric | src/genencoder/genencoder.py:229 | every ring neighbour is a qubit, and coupling goes both ways |
| Connectivity.LocalLine | src/genencoder/genencoder.py:227 | qubit 0 has neighbour 1 and the last qubit has neighbour n-2, each qubit between has k+1 then k-1, and the last entry wins for n = 1 |
| Connectivity.LocalLineNeighbours | src/genencoder/genencoder.py:227 | for two or more qubits, each qubit is coupled with exactly the qubits next to it |
| Connectivity.LocalLineSymmetric | src/genencoder/genencoder.py:227 | for two or more qubits, every neighbour is a qubit and coupling goes both ways |
| Connectivity.LocalLineDegenerate | src/genencoder/genencoder.py:227 | one qubit gives `{0: [-1]}`, with a neighbour that is not a qubit; zero qubits give `{0: [1], -1: [-2]}` |
| Connectivity.MakeConnectivityMap | src/genencoder/genencoder.py:220-231 | a missing qubit count fails before the key is looked at; it succeeds exactly for the three keys in any case, with their maps; any other key fails naming the key |
| Connectivity.KeyCaseInsensitive | src/genencoder/genencoder.py:224-229 | an ASCII upper-cased key selects the same map, and fails exactly when the original key fails (the error names the key as given) |
| GeneratorNames.SortChars | src/genencoder/genencoder.py:204 | `"".join(sorted(x))`: sorted, with the same characters |
| GeneratorNames.SortCharsCharacterised | src/genencoder/genencoder.py:204 | the sorted string is the only sorted string with the input's characters |
| GeneratorNames.GeneratorNameAsWritten | src/genencoder/genencoder.py:204 | the normalisation as written: the upper-casing of the one sorted string with the name's characters, so order is fixed before case |
| GeneratorNames.AsWrittenSameCharacters | src/genencoder/genencoder.py:204 | names with the same characters, case included, normalise alike as written (`XY` and `YX`) |
| GeneratorNames.AsWrittenMixedCase | src/genencoder/genencoder.py:204 | `xY` and `XY` have the same letters up to case, but normalise to `YX` and `XY`; and `YX` normalises to `XY`, so the normalisation as written is not idempotent |
| GeneratorNames.GeneratorName | src/genencoder/genencoder.py:164-166 | corrected normalisation: a sorted string with the name's upper-cased characters |
| GeneratorNames.GeneratorNameSameLetters | src/genencoder/genencoder.py:164-166 | corrected normalisation: two names coincide exactly when they have the same letters up to case |
| GeneratorNames.GeneratorNameIdempotent | src/genencoder/genencoder.py:164-166 | corrected normalisation: a normalised name is its own normalisation |
| GeneratorNames.Generators | src/genencoder/genencoder.py:203-206 | as written: one name per given name, in order, each the upper-casing of the sorted string with its characters; or the nine defaults |
| GeneratorNames.GeneratorsAsWrittenNotIdempotent | src/genencoder/genencoder.py:204 | the list as written is not idempotent: `["xY"]` gives `["YX"]`, which gives `["XY"]` |
| GeneratorNames.GeneratorsCorrected | src/genencoder/genencoder.py:164-166 | corrected: each given name's upper-cased characters, sorted, in order; or the nine defaults |
| GeneratorNames.DefaultsNormalised | src/genencoder/genencoder.py:206 | the default names are already normalised, as written and as corrected |
| GeneratorNames.GeneratorsIdempotent | src/genencoder/genencoder.py:164-166 | corrected list: normalising a generator list twice is normalising it once |

## Left out

- Numbers are exact reals, not IEEE doubles. `numpy.pi` is the exact value of the double, and `fix_periodicity` is exact: rounding in `%` and in the product `coeff * angle` is not modelled.
- `numpy.isclose(a, 0, atol=t)` is modelled as `|a| <= t`, which is what it computes against 0 up to rounding.
- `"{:2.4f}"`, `str(ps.naked())`, `from_string`, `float`, `make_generator` and `str` of a variable list are fields of `Circuits.Library`. Their source is not part of this model. What the round trip needs from them is stated as hypotheses in `RoundTrip.Laws`, not proved.
- RoundTrip.EncodeDecode: proved for one-character, distinct separators with a non-whitespace angle separator (the defaults `|` and `@` qualify), and for variable names that are non-blank, stripped, not numbers and free of separators.
- RoundTrip.EncodeDecode: it does not claim the decoded circuit equals the input circuit. Numeric angles are folded into a coefficient printed to four decimals, and a variable named like a number reads back as that number. A symbolic angle is written as its variable name or names only, so an H gate's `pi * a` or a sum of variables decodes as a bare symbol: the factor pi and the expression's structure are lost.
- Text.SplitAppendSeparator: stated for one-character separators only, which is all `decode` needs for the defaults.
- The separators are an immutable `Codec.Symbols` value. The source stores them in a dictionary shared by every instance, so one constructor call changes the separators of all encoders (lines 10 and 20-24).
- `__call__` (type sniffing between encode and decode), `__repr__`, and the message `prune_circuit` prints are dispatch and I/O. `Encode`, `Decode` and `Prune` are separate members.
- `export_to` calls an external renderer.
- `variables=None` is modelled as the empty map.
- The bare `except` in `encode` catches any exception from `gate.parameter(variables)`. The model covers only its ordinary cause, an unresolved variable (`Circuits.Resolve`).
- `CircuitGenerator.make_random_constant_depth_circuit` and `__call__` depend on `numpy.random`, and their retry loop is nondeterministic.
- The `CircuitGenerator` constructor's depth default, the upper-casing of `fix_angles` keys, and its use of a dictionary connectivity are not modelled. `make_connectivity_map_from_circuit` only raises `NotImplementedError`.
- Codec.Decode: requires both separators non-empty. `str.split` raises `ValueError` on an empty separator (lines 80 and 86); the model does not represent that exception. Equal separators are allowed (`Codec.DecodeEqualSeparators`).
- `Text.Lower` and `Text.Upper` map ASCII letters only. Python's full Unicode case mapping, which can change a string's length, is not modelled.
- Line 203 accepts any iterable `generators` argument (a tuple, a string, a dictionary's keys). The model takes the sequence of names it yields. A value that is neither iterable nor `None` raises at line 208; the typed model cannot express it.

## Findings

| source | as written | input that shows it | evidently intended | confidence | as-written member | corrected member |
|---|---|---|---|---|---|---|
| src/genencoder/genencoder.py:204 | the characters of a generator name are sorted first and upper-cased after, so lower-case letters sort after every upper-case one | `"xY"` normalises to `"YX"` but `"XY"` to `"XY"` | upper-case first, then sort, so names with the same letters up to case are the same generator: the `.upper()` at line 204 shows case is meant not to matter (the documented `XY`/`YX` case already holds as written, `GeneratorNames.AsWrittenSameCharacters`); as written, `generators=["xY"]` yields the name `"YX"`, so a `fix_angles` key `"XY"` (upper-cased at line 218) is never matched at line 272 | medium; not executed | GeneratorNames.AsWrittenMixedCase | GeneratorNames.GeneratorNameSameLetters |

=== FILE: angles.dfy ===
/**
 * Angle periodicity (`fix_periodicity`) and the near-zero test of
 * `prune_circuit`, over the reals.
 */
module Angles {

  /** `numpy.pi`: the double closest to pi, written out exactly. */
  const Pi: real := 3.141592653589793115997963468544185161590576171875

  /** The period of a Pauli-string exponential in this encoding: 4 pi. */
  const FourPi: real := 4.0 * Pi

  /** `x` is a whole number. */
  predicate IsWhole(x: real) {
    x.Floor as real == x
  }

  /** `a` and `b` differ by a whole number of periods. */
  predicate SamePhase(a: real, b: real) {
    IsWhole((a - b) / FourPi)
  }

  /**
   * `fix_periodicity`: the angle reduced into [0, 4 pi). The remainder follows
   * Python's `%`, which takes the sign of the divisor, so the second branch (the
   * source's `angle < 0` correction) is never taken.
   */
  function FixPeriodicity(angle: real): (r: real)
    ensures 0.0 <= r < FourPi
    ensures SamePhase(angle, r)
  {
    var m := angle - (angle / FourPi).Floor as real * FourPi;
    if m < 0.0 then m + FourPi else m
  }

  /** Python's remainder of a division by 4 pi is never negative, so the source's `angle < 0` correction never applies. */
  lemma CorrectionUnreachable(angle: real)
    ensures angle - (angle / FourPi).Floor as real * FourPi >= 0.0
    ensures FixPeriodicity(angle) == angle - (angle / FourPi).Floor as real * FourPi
  {
    var q := angle / FourPi;
    assert q.Floor as real <= q;
    assert q * FourPi == angle;
    assert q.Floor as real * FourPi <= q * FourPi;
  }

  /** A non-zero whole number of periods is at least one period long. */
  lemma WholePeriods(k: int)
    ensures k >= 1 ==> k as real * FourPi >= FourPi
    ensures k <= -1 ==> k as real * FourPi <= -FourPi
  {
  }

  /** The reduced angle is the only angle in [0, 4 pi) with the same phase. */
  lemma FixPeriodicityUnique(angle: real, r: real)
    requires 0.0 <= r < FourPi && SamePhase(angle, r)
    ensures r == FixPeriodicity(angle)
  {
    var f := FixPeriodicity(angle);
    assert SamePhase(angle, f);
    var n := ((angle - r) / FourPi).Floor;
    var m := ((angle - f) / FourPi).Floor;
    assert (angle - r) == n as real * FourPi;
    assert (angle - f) == m as real * FourPi;
    assert f - r == (n - m) as real * FourPi;
    WholePeriods(n - m);
  }

  /** Reducing an already reduced angle changes nothing. */
  lemma FixPeriodicityIdempotent(angle: real)
    ensures FixPeriodicity(FixPeriodicity(angle)) == FixPeriodicity(angle)
  {
    var f := FixPeriodicity(angle);
    assert (f - f) / FourPi == 0.0;
    FixPeriodicityUnique(f, f);
  }

  /** Adding whole periods does not change the reduced angle. */
  lemma FixPeriodicityPeriodic(angle: real, k: int)
    ensures FixPeriodicity(angle + k as real * FourPi) == FixPeriodicity(angle)
  {
    var f := FixPeriodicity(angle);
    var n := ((angle - f) / FourPi).Floor;
    assert angle - f == n as real * FourPi;
    assert (angle + k as real * FourPi - f) / FourPi == (n + k) as real;
    FixPeriodicityUnique(angle + k as real * FourPi, f);
  }

  /** `numpy.isclose(angle, 0.0, atol=threshold)`: with 0 as the reference the relative tolerance vanishes. */
  predicate NearZero(angle: real, threshold: real) {
    (if angle < 0.0 then -angle else angle) <= threshold
  }
}

=== FILE: circuits.dfy ===
/**
 * The circuit library as the codec sees it: gates with targets, controls and
 * an optional angle expression, Pauli strings with a coefficient, and the
 * library calls whose source is not part of this model, gathered in `Library`.
 */
module Circuits {
  import opened Results
  import opened Text

  datatype Pauli = X | Y | Z

  /**
   * One Pauli string: the operator on each qubit it acts on, and its real
   * coefficient. Its length (`len(ps)` in the source) is the number of qubits
   * it acts on; length zero is a global phase.
   */
  datatype PauliString = PauliString(letters: map<nat, Pauli>, coeff: real)

  predicate IsGlobalPhase(ps: PauliString) {
    |ps.letters| == 0
  }

  /** A gate angle as the library stores it: a constant, a named variable, or arithmetic on those. */
  datatype Expr =
    | Const(value: real)
    | Var(name: string)
    | Scale(factor: real, arg: Expr)
    | Sum(left: Expr, right: Expr)

  /** The variables an angle expression refers to. */
  function Vars(e: Expr): set<string> {
    match e
    case Const(_) => {}
    case Var(n) => {n}
    case Scale(_, a) => Vars(a)
    case Sum(l, r) => Vars(l) + Vars(r)
  }

  /** `xs` followed by the elements of `ys` not already listed, in order. */
  function AppendNew(xs: seq<string>, ys: seq<string>): (r: seq<string>)
    ensures (set x | x in r) == (set x | x in xs) + (set y | y in ys)
    ensures Distinct(xs) ==> Distinct(r)
    ensures |xs| <= |r| && r[..|xs|] == xs
    decreases |ys|
  {
    if |ys| == 0 then xs
    else if ys[0] in xs then AppendNew(xs, ys[1..])
    else AppendNew(xs + [ys[0]], ys[1..])
  }

  predicate Distinct(xs: seq<string>) {
    forall i, j :: 0 <= i < j < |xs| ==> xs[i] != xs[j]
  }

  /** A list without repeats has as many elements as its set. */
  lemma {:induction false} DistinctCard(xs: seq<string>)
    requires Distinct(xs)
    ensures |set x | x in xs| == |xs|
    decreases |xs|
  {
    if |xs| > 0 {
      var t := xs[1..];
      DistinctCard(t);
      assert (set x | x in xs) == (set x | x in t) + {xs[0]};
      assert xs[0] !in (set x | x in t);
    }
  }

  /**
   * `extract_variables()`: each variable the expression refers to, once, in
   * order of first appearance.
   */
  function Names(e: Expr): (r: seq<string>)
    ensures Distinct(r)
    ensures (set n | n in r) == Vars(e)
  {
    match e
    case Const(_) => []
    case Var(n) => [n]
    case Scale(_, a) => Names(a)
    case Sum(l, r) => AppendNew(Names(l), Names(r))
  }

  /** Value of an expression under an environment that binds all its variables. */
  function Eval(e: Expr, env: map<string, real>): real
    requires Vars(e) <= env.Keys
  {
    match e
    case Const(v) => v
    case Var(n) => env[n]
    case Scale(k, a) => k * Eval(a, env)
    case Sum(l, r) => Eval(l, env) + Eval(r, env)
  }

  /** Outcome of `gate.parameter(variables)`: a number, or the names reported when the call fails. */
  datatype Resolution = Resolved(value: real) | Unresolved(names: seq<string>)

  /**
   * `gate.parameter(variables)`, with the exception turned into a value: the
   * angle resolves exactly when every variable it refers to is supplied;
   * otherwise it reports all of them (`extract_variables()`), at least one.
   */
  function Resolve(e: Expr, env: map<string, real>): (r: Resolution)
    ensures r.Resolved? <==> Vars(e) <= env.Keys
    ensures r.Unresolved? ==> |r.names| >= 1 && Distinct(r.names) && (set n | n in r.names) == Vars(e)
    ensures r.Unresolved? ==> r.names == Names(e)
  {
    if Vars(e) <= env.Keys then Resolved(Eval(e, env)) else Unresolved(Names(e))
  }

  /** A circuit gate: its name, target and control qubits, and its angle if it has one. */
  datatype Gate = Gate(name: string, target: seq<nat>, control: seq<nat>, parameter: Option<Expr>)

  /** `tq.gates.Ry(angle, target)` with a numeric angle. */
  function Ry(angle: real, target: seq<nat>): Gate {
    Gate("Ry", target, [], Some(Const(angle)))
  }

  /** `tq.gates.Rz(angle, target, control)`. */
  function Rz(angle: Expr, target: seq<nat>, control: seq<nat>): Gate {
    Gate("Rz", target, control, Some(angle))
  }

  /** A gate of a decoded circuit: `tq.gates.ExpPauli(paulistring, angle)`. */
  datatype ExpPauliGate = ExpPauli(paulistring: PauliString, angle: DecodedAngle)

  /** The angle of a decoded gate: a number or a variable name left symbolic. */
  datatype DecodedAngle = Fixed(value: real) | Symbol(name: string)

  /**
   * The library calls the codec makes, as functions:
   * - `generator(g)`: `g.make_generator(include_controls=True).paulistrings`;
   * - `naked(ps)`: `str(ps.naked())`, the Pauli letters with their qubit indices;
   * - `fromString(s)`: `QubitHamiltonian.from_string(s).paulistrings`, `None` when it raises;
   * - `parseFloat(s)`: Python's `float(s)`, `None` when it raises;
   * - `formatCoeff(x)`: `"{:2.4f}".format(x)`;
   * - `nameList(ns)`: `str(ns)` for a list of several variables.
   */
  datatype Library = Library(
    generator: Gate -> seq<PauliString>,
    naked: PauliString -> string,
    fromString: string -> Option<seq<PauliString>>,
    parseFloat: string -> Option<real>,
    formatCoeff: real -> string,
    nameList: seq<string> -> string
  )
}

=== FILE: codec.dfy ===
/**
 * `CircuitGenEncoder`: a circuit becomes a string of self-terminating tokens
 * `<prefix><angle separator><coefficient><pauli letters><gate separator>`, one
 * per non-trivial Pauli string of each compiled gate's generator, and a string
 * of such tokens is read back into a circuit of Pauli-string exponentials.
 */
module Codec {
  import opened Results
  import opened Text
  import opened Seqs
  import opened Angles
  import opened Circuits
  import opened Compiler

  /**
   * The two separators of the grammar, fixed when the codec is built. Decoding
   * needs both non-empty, since `str.split` rejects an empty separator; they
   * may be equal (`DecodeEqualSeparators` shows what that does).
   */
  datatype Symbols = Symbols(gateSeparator: string, angleSeparator: string) {
    predicate Valid() {
      |gateSeparator| > 0 && |angleSeparator| > 0
    }
  }

  /** The separators used when none are given: `|` between gates and `@` after the angle. */
  const DefaultSymbols: Symbols := Symbols("|", "@")

  /** The angle a gate is encoded with: a number, or the text that stands for its unresolved variables. */
  datatype EncodedAngle = Numeric(value: real) | Symbolic(text: string)

  /**
   * The angle of one gate at encode time: 1.0 for a gate without an angle; the
   * number when the variables resolve it; otherwise its variable's name if it
   * refers to one variable, or the library's rendering of the name list if it
   * refers to several.
   */
  function GateAngle(lib: Library, g: Gate, vars: map<string, real>): (a: EncodedAngle)
    ensures g.parameter.None? ==> a == Numeric(1.0)
    ensures g.parameter.Some? ==> (a.Numeric? <==> Vars(g.parameter.value) <= vars.Keys)
    ensures g.parameter.Some? && a.Numeric? ==> a.value == Eval(g.parameter.value, vars)
    ensures g.parameter.Some? && a.Symbolic? && |Vars(g.parameter.value)| == 1 ==> a.text in Vars(g.parameter.value)
    ensures g.parameter.Some? && a.Symbolic? && |Vars(g.parameter.value)| != 1 ==> a.text == lib.nameList(Names(g.parameter.value))
  {
    match g.parameter
    case None => Numeric(1.0)
    case Some(e) =>
      match Resolve(e, vars)
      case Resolved(x) => Numeric(x)
      case Unresolved(names) =>
        DistinctCard(names);
        if |names| == 1 then
          assert names[0] in set n | n in names;
          Symbolic(names[0])
        else
          Symbolic(lib.nameList(names))
  }

  /** One Pauli string to be encoded, with the angle of the gate it came from. */
  datatype Term = Term(ps: PauliString, angle: EncodedAngle)

  function WithAngle(pss: seq<PauliString>, angle: EncodedAngle): (r: seq<Term>)
    ensures |r| == |pss|
    ensures forall k :: 0 <= k < |r| ==> r[k] == Term(pss[k], angle)
  {
    seq(|pss|, k requires 0 <= k < |pss| => Term(pss[k], angle))
  }

  /** The Pauli strings of a gate's generator that are not global phases. */
  function NonTrivial(pss: seq<PauliString>): seq<PauliString> {
    Keep(pss, ps => !IsGlobalPhase(ps))
  }

  /** The terms one gate contributes: its generator's non-trivial Pauli strings, in generator order. */
  function GateTerms(lib: Library, g: Gate, vars: map<string, real>): seq<Term> {
    WithAngle(NonTrivial(lib.generator(g)), GateAngle(lib, g, vars))
  }

  /** The terms of a circuit: each gate's terms, in gate order. */
  function Terms(lib: Library, c: seq<Gate>, vars: map<string, real>): seq<Term>
    decreases |c|
  {
    if |c| == 0 then [] else Terms(lib, c[..|c| - 1], vars) + GateTerms(lib, c[|c| - 1], vars)
  }

  /** The three fields of a token. */
  datatype Token = Token(prefix: string, coeffText: string, pauliText: string)

  /** A token without its gate separator: what a decoder sees between two gate separators. */
  function Body(cfg: Symbols, t: Token): string {
    t.prefix + cfg.angleSeparator + t.coeffText + t.pauliText
  }

  function TokenText(cfg: Symbols, t: Token): string {
    Body(cfg, t) + cfg.gateSeparator
  }

  /**
   * The fields `encode_paulistring` writes: a numeric angle is folded into the
   * coefficient and leaves the prefix empty; a symbolic angle becomes the prefix
   * and the coefficient is the Pauli string's own. The coefficient is reduced
   * into [0, 4 pi) before it is formatted.
   */
  function MakeToken(lib: Library, t: Term): Token {
    Token(if t.angle.Numeric? then "" else t.angle.text, lib.formatCoeff(EncodedCoeff(t)), lib.naked(t.ps))
  }

  /** The number `encode_paulistring` formats: the coefficient times a numeric angle, or the coefficient alone, reduced into [0, 4 pi). */
  function EncodedCoeff(t: Term): real {
    match t.angle
    case Numeric(x) => FixPeriodicity(Times(t.ps.coeff, x))
    case Symbolic(_) => FixPeriodicity(t.ps.coeff)
  }

  /** `ps.coeff * angle` (a named product, so that equal factors give equal products to the solver). */
  function Times(coeff: real, angle: real): real {
    coeff * angle
  }

  /**
   * `encode_paulistring`: one self-terminating token. It starts with the prefix
   * (empty for a numeric angle, the symbolic text otherwise), has the angle
   * separator right after it, then the formatted coefficient (the coefficient
   * times the angle when numeric, the coefficient alone when symbolic), and ends
   * with the gate separator.
   */
  function EncodePauliString(lib: Library, cfg: Symbols, ps: PauliString, angle: EncodedAngle): (r: string)
    ensures angle.Numeric? ==>
      cfg.angleSeparator + lib.formatCoeff(FixPeriodicity(Times(ps.coeff, angle.value))) <= r
    ensures angle.Symbolic? ==>
      angle.text + cfg.angleSeparator + lib.formatCoeff(FixPeriodicity(ps.coeff)) <= r
    ensures |cfg.gateSeparator| <= |r| && r[|r| - |cfg.gateSeparator|..] == cfg.gateSeparator
  {
    var t := MakeToken(lib, Term(ps, angle));
    var head := t.prefix + cfg.angleSeparator + t.coeffText;
    var r := TokenText(cfg, t);
    assert r == head + (t.pauliText + cfg.gateSeparator);
    assert r[..|head|] == head;
    assert r == Body(cfg, t) + cfg.gateSeparator;
    if angle.Numeric? then
      assert t.prefix == "";
      assert head == cfg.angleSeparator + t.coeffText;
      r
    else
      r
  }

  /** The tokens of a sequence of terms, written one after the other. */
  function RenderTerms(lib: Library, cfg: Symbols, ts: seq<Term>): string
    decreases |ts|
  {
    if |ts| == 0 then ""
    else RenderTerms(lib, cfg, ts[..|ts| - 1]) + EncodePauliString(lib, cfg, ts[|ts| - 1].ps, ts[|ts| - 1].angle)
  }

  /**
   * `encode`: compile the circuit, then for each gate in order append its
   * tokens. The result is the tokens of `Terms` of the compiled circuit.
   */
  method Encode(lib: Library, cfg: Symbols, circuit: seq<Gate>, vars: map<string, real>) returns (result: string)
    ensures result == RenderTerms(lib, cfg, Terms(lib, Compile(circuit), vars))
  {
    var compiled := Compile(circuit);
    result := "";
    for i := 0 to |compiled|
      invariant result == RenderTerms(lib, cfg, Terms(lib, compiled[..i], vars))
    {
      var tokens := EncodeGate(lib, cfg, compiled[i], vars);
      result := result + tokens;
      TermsStep(lib, compiled, i, vars);
      RenderTermsAppend(lib, cfg, Terms(lib, compiled[..i], vars), GateTerms(lib, compiled[i], vars));
    }
    assert compiled[..|compiled|] == compiled;
  }

  /**
   * The inner loop of `encode` for one gate: its angle, then one token per Pauli
   * string of its generator in order, skipping global phases.
   */
  method EncodeGate(lib: Library, cfg: Symbols, gate: Gate, vars: map<string, real>) returns (tokens: string)
    ensures tokens == RenderTerms(lib, cfg, GateTerms(lib, gate, vars))
  {
    var generator := lib.generator(gate);
    var angle := GateAngle(lib, gate, vars);
    tokens := "";
    assert NonTrivial(generator[..0]) == [];
    for j := 0 to |generator|
      invariant tokens == RenderTerms(lib, cfg, WithAngle(NonTrivial(generator[..j]), angle))
    {
      var ps := generator[j];
      GeneratorStep(lib, cfg, generator, j, angle);
      if |ps.letters| == 0 {
        // a global phase: no token
      } else {
        tokens := tokens + EncodePauliString(lib, cfg, ps, angle);
      }
    }
    assert generator[..|generator|] == generator;
  }

  /** One more Pauli string of a generator adds its token, unless it is a global phase. */
  lemma {:induction false} GeneratorStep(lib: Library, cfg: Symbols, gen: seq<PauliString>, j: nat, angle: EncodedAngle)
    requires j < |gen|
    ensures RenderTerms(lib, cfg, WithAngle(NonTrivial(gen[..j + 1]), angle))
      == RenderTerms(lib, cfg, WithAngle(NonTrivial(gen[..j]), angle))
        + (if IsGlobalPhase(gen[j]) then "" else EncodePauliString(lib, cfg, gen[j], angle))
  {
    var ps := gen[j];
    var kept := NonTrivial(gen[..j]);
    NonTrivialStep(gen, j);
    if IsGlobalPhase(ps) {
      assert NonTrivial(gen[..j + 1]) == kept + [] == kept;
    } else {
      RenderWithAngleSnoc(lib, cfg, kept, ps, angle);
    }
  }

  /** One more Pauli string keeps its place among the non-trivial ones unless it is a global phase. */
  lemma NonTrivialStep(gen: seq<PauliString>, j: nat)
    requires j < |gen|
    ensures NonTrivial(gen[..j + 1]) == NonTrivial(gen[..j]) + (if IsGlobalPhase(gen[j]) then [] else [gen[j]])
  {
    assert gen[..j + 1] == gen[..j] + [gen[j]];
    KeepSnoc(gen[..j], gen[j], ps => !IsGlobalPhase(ps));
  }

  /** Rendering one more Pauli string with the gate's angle appends its token. */
  lemma RenderWithAngleSnoc(lib: Library, cfg: Symbols, kept: seq<PauliString>, ps: PauliString, angle: EncodedAngle)
    ensures RenderTerms(lib, cfg, WithAngle(kept + [ps], angle))
      == RenderTerms(lib, cfg, WithAngle(kept, angle)) + EncodePauliString(lib, cfg, ps, angle)
  {
    WithAngleSnoc(kept, ps, angle);
    RenderTermsSnoc(lib, cfg, WithAngle(kept, angle), Term(ps, angle));
  }

  lemma WithAngleSnoc(pss: seq<PauliString>, ps: PauliString, angle: EncodedAngle)
    ensures WithAngle(pss + [ps], angle) == WithAngle(pss, angle) + [Term(ps, angle)]
  {
  }

  lemma RenderTermsSnoc(lib: Library, cfg: Symbols, ts: seq<Term>, t: Term)
    ensures RenderTerms(lib, cfg, ts + [t]) == RenderTerms(lib, cfg, ts) + EncodePauliString(lib, cfg, t.ps, t.angle)
  {
    assert (ts + [t])[..|ts|] == ts;
  }

  /** The terms of one more gate follow the terms of the gates before it. */
  lemma TermsStep(lib: Library, c: seq<Gate>, i: nat, vars: map<string, real>)
    requires i < |c|
    ensures Terms(lib, c[..i + 1], vars) == Terms(lib, c[..i], vars) + GateTerms(lib, c[i], vars)
  {
    assert c[..i + 1][..i] == c[..i];
  }

  /** The terms of a concatenation of circuits are the terms of the first followed by those of the second. */
  lemma TermsAppend(lib: Library, a: seq<Gate>, b: seq<Gate>, vars: map<string, real>)
    ensures Terms(lib, a + b, vars) == Terms(lib, a, vars) + Terms(lib, b, vars)
  {
    var F := (c: seq<Gate>) => Terms(lib, c, vars);
    forall c: seq<Gate>, g: Gate ensures F(c + [g]) == F(c) + GateTerms(lib, g, vars) {
      TermsSnoc(lib, c, g, vars);
    }
    SnocBuiltAppend(F, (g: Gate) => GateTerms(lib, g, vars), a, b);
  }

  /** The terms of a circuit with one more gate at the end. */
  lemma TermsSnoc(lib: Library, c: seq<Gate>, g: Gate, vars: map<string, real>)
    ensures Terms(lib, c + [g], vars) == Terms(lib, c, vars) + GateTerms(lib, g, vars)
  {
    assert (c + [g])[..|c|] == c;
  }

  /** Rendering a concatenation of terms writes the first part's tokens, then the second's. */
  lemma RenderTermsAppend(lib: Library, cfg: Symbols, s: seq<Term>, t: seq<Term>)
    ensures RenderTerms(lib, cfg, s + t) == RenderTerms(lib, cfg, s) + RenderTerms(lib, cfg, t)
  {
    var F := (us: seq<Term>) => RenderTerms(lib, cfg, us);
    forall us: seq<Term>, u: Term ensures F(us + [u]) == F(us) + EncodePauliString(lib, cfg, u.ps, u.angle) {
      RenderTermsSnoc(lib, cfg, us, u);
    }
    SnocBuiltAppend(F, (u: Term) => EncodePauliString(lib, cfg, u.ps, u.angle), s, t);
  }

  /** Encoding a circuit made of two parts writes the first part's encoding, then the second's. */
  lemma {:induction false} EncodeAppend(lib: Library, cfg: Symbols, a: seq<Gate>, b: seq<Gate>, vars: map<string, real>)
    ensures RenderTerms(lib, cfg, Terms(lib, Compile(a + b), vars))
      == RenderTerms(lib, cfg, Terms(lib, Compile(a), vars)) + RenderTerms(lib, cfg, Terms(lib, Compile(b), vars))
  {
    CompileAppend(a, b);
    TermsAppend(lib, Compile(a), Compile(b), vars);
    RenderTermsAppend(lib, cfg, Terms(lib, Compile(a), vars), Terms(lib, Compile(b), vars));
  }

  /** Why a string does not decode. */
  datatype DecodeError =
    | FieldCount(fragment: string, count: nat)  // the fragment does not split into exactly prefix and Pauli text
    | PauliSyntax(text: string)                 // the library cannot read the Pauli text
    | TermCount(text: string, count: nat)       // the Pauli text reads as other than exactly one term

  /** Each piece stripped of surrounding whitespace. */
  function StripAll(pieces: seq<string>): (r: seq<string>)
    ensures |r| == |pieces|
    ensures forall k :: 0 <= k < |r| ==> r[k] == Strip(pieces[k])
    ensures forall k :: 0 <= k < |r| ==> Strip(r[k]) == r[k]
  {
    forall k | 0 <= k < |pieces| ensures Strip(Strip(pieces[k])) == Strip(pieces[k]) {
      StripIdempotent(pieces[k]);
    }
    seq(|pieces|, k requires 0 <= k < |pieces| => Strip(pieces[k]))
  }

  /** The non-blank fragments of a string, stripped, in order: what `decode` turns into gates. */
  function Fragments(cfg: Symbols, s: string): (r: seq<string>)
    requires cfg.Valid()
    ensures forall k :: 0 <= k < |r| ==> r[k] != "" && Strip(r[k]) == r[k]
  {
    var stripped := StripAll(Split(s, cfg.gateSeparator));
    NonBlankStripped(stripped);
    Keep(stripped, f => f != "")
  }

  lemma NonBlankStripped(fs: seq<string>)
    requires forall k :: 0 <= k < |fs| ==> Strip(fs[k]) == fs[k]
    ensures var r := Keep(fs, f => f != "");
      forall k :: 0 <= k < |r| ==> r[k] != "" && Strip(r[k]) == r[k]
  {
    var r := Keep(fs, f => f != "");
    forall k | 0 <= k < |r| ensures Strip(r[k]) == r[k] {
      assert r[k] in fs;
    }
  }

  /**
   * How `decode` reads an angle prefix: as a number if `float` accepts it;
   * otherwise, stripped, as 1.0 if blank, as the supplied value if it names a
   * supplied variable, and as a symbolic angle with that name if not. No error
   * is raised.
   */
  function ResolvePrefix(lib: Library, prefix: string, vars: map<string, real>): (a: DecodedAngle)
    ensures lib.parseFloat(prefix).Some? ==> a == Fixed(lib.parseFloat(prefix).value)
    ensures lib.parseFloat(prefix).None? && Strip(prefix) == "" ==> a == Fixed(1.0)
    ensures lib.parseFloat(prefix).None? && Strip(prefix) != "" && Strip(prefix) in vars ==> a == Fixed(vars[Strip(prefix)])
    ensures lib.parseFloat(prefix).None? && Strip(prefix) != "" && Strip(prefix) !in vars ==> a == Symbol(Strip(prefix))
  {
    match lib.parseFloat(prefix)
    case Some(x) => Fixed(x)
    case None =>
      var name := Strip(prefix);
      if name == "" then Fixed(1.0)
      else if name in vars then Fixed(vars[name])
      else Symbol(name)
  }

  /** `decode_paulistring`: the text must read as exactly one Pauli string. */
  function DecodePaulistring(lib: Library, text: string): (r: Result<PauliString, DecodeError>)
    ensures r.Ok? <==> lib.fromString(text).Some? && |lib.fromString(text).value| == 1
    ensures r.Ok? ==> lib.fromString(text).value == [r.value]
    ensures lib.fromString(text).None? ==> r == Err(PauliSyntax(text))
    ensures lib.fromString(text).Some? && |lib.fromString(text).value| != 1 ==>
      r == Err(TermCount(text, |lib.fromString(text).value|))
  {
    match lib.fromString(text)
    case None => Err(PauliSyntax(text))
    case Some(terms) =>
      if |terms| == 1 then Ok(terms[0]) else Err(TermCount(text, |terms|))
  }

  /**
   * One fragment: it must split on the angle separator into exactly two parts,
   * the prefix and the Pauli text; the gate is the exponential of the one Pauli
   * string the text reads as, with the resolved prefix as its angle.
   */
  function DecodeFragment(lib: Library, cfg: Symbols, fragment: string, vars: map<string, real>): (r: Result<ExpPauliGate, DecodeError>)
    requires cfg.Valid()
    ensures |Split(fragment, cfg.angleSeparator)| != 2 ==>
      r == Err(FieldCount(fragment, |Split(fragment, cfg.angleSeparator)|))
    ensures r.Ok? <==>
      var parts := Split(fragment, cfg.angleSeparator);
      |parts| == 2 && DecodePaulistring(lib, parts[1]).Ok?
    ensures var parts := Split(fragment, cfg.angleSeparator);
      |parts| == 2 && DecodePaulistring(lib, parts[1]).Err? ==> r == Err(DecodePaulistring(lib, parts[1]).error)
    ensures r.Ok? ==>
      var parts := Split(fragment, cfg.angleSeparator);
      && r.value.angle == ResolvePrefix(lib, parts[0], vars)
      && lib.fromString(parts[1]) == Some([r.value.paulistring])
  {
    var parts := Split(fragment, cfg.angleSeparator);
    if |parts| != 2 then Err(FieldCount(fragment, |parts|))
    else
      match DecodePaulistring(lib, parts[1])
      case Err(e) => Err(e)
      case Ok(ps) => Ok(ExpPauli(ps, ResolvePrefix(lib, parts[0], vars)))
  }

  /**
   * The fragments in order, failing on the first one that does not decode: the
   * i-th gate comes from the i-th fragment.
   */
  function DecodeAll(lib: Library, cfg: Symbols, fragments: seq<string>, vars: map<string, real>): (r: Result<seq<ExpPauliGate>, DecodeError>)
    requires cfg.Valid()
    ensures r.Ok? <==> forall i :: 0 <= i < |fragments| ==> DecodeFragment(lib, cfg, fragments[i], vars).Ok?
    ensures r.Ok? ==> |r.value| == |fragments|
    ensures r.Ok? ==> forall i :: 0 <= i < |fragments| ==> DecodeFragment(lib, cfg, fragments[i], vars) == Ok(r.value[i])
    ensures r.Err? ==> exists i :: (
      && 0 <= i < |fragments|
      && DecodeFragment(lib, cfg, fragments[i], vars) == Err(r.error)
      && forall j :: 0 <= j < i ==> DecodeFragment(lib, cfg, fragments[j], vars).Ok?)
  {
    MapAll(x requires cfg.Valid() => DecodeFragment(lib, cfg, x, vars), fragments)
  }

  /**
   * `decode`: split on the gate separator, skip fragments that are blank after
   * stripping, and decode the rest in order. The i-th gate is the i-th
   * non-blank fragment's gate; the first malformed fragment fails the whole
   * string with its error.
   */
  function Decode(lib: Library, cfg: Symbols, s: string, vars: map<string, real>): (r: Result<seq<ExpPauliGate>, DecodeError>)
    requires cfg.Valid()
    ensures r.Ok? <==> forall i :: 0 <= i < |Fragments(cfg, s)| ==> DecodeFragment(lib, cfg, Fragments(cfg, s)[i], vars).Ok?
    ensures r.Ok? ==> |r.value| == |Fragments(cfg, s)|
    ensures r.Ok? ==> forall i :: 0 <= i < |r.value| ==> DecodeFragment(lib, cfg, Fragments(cfg, s)[i], vars) == Ok(r.value[i])
    ensures r.Err? ==> exists i :: (
      && 0 <= i < |Fragments(cfg, s)|
      && DecodeFragment(lib, cfg, Fragments(cfg, s)[i], vars) == Err(r.error)
      && forall j :: 0 <= j < i ==> DecodeFragment(lib, cfg, Fragments(cfg, s)[j], vars).Ok?)
  {
    DecodeAll(lib, cfg, Fragments(cfg, s), vars)
  }

  /** A fragment holds no gate separator: it is stripped from a piece of the split, and stripping only cuts. */
  lemma FragmentsFree(cfg: Symbols, s: string)
    requires cfg.Valid()
    ensures forall k :: 0 <= k < |Fragments(cfg, s)| ==> !Occurs(Fragments(cfg, s)[k], cfg.gateSeparator)
  {
    var pieces := Split(s, cfg.gateSeparator);
    var stripped := StripAll(pieces);
    var fs := Fragments(cfg, s);
    assert fs == Keep(stripped, f => f != "");
    forall k | 0 <= k < |fs| ensures !Occurs(fs[k], cfg.gateSeparator) {
      assert fs[k] in stripped;
      var m :| 0 <= m < |stripped| && stripped[m] == fs[k];
      StrippedFree(pieces[m], cfg.gateSeparator);
    }
  }

  /** Stripping keeps a string free of a pattern. */
  lemma StrippedFree(p: string, pat: string)
    requires !Occurs(p, pat)
    ensures !Occurs(Strip(p), pat)
  {
    var lo := LeadingSpace(p);
    SliceFree(p, pat, lo, lo + |Strip(p)|);
  }

  /** A slice of a string free of a pattern is free of it. */
  lemma SliceFree(p: string, pat: string, lo: nat, hi: nat)
    requires lo <= hi <= |p| && !Occurs(p, pat)
    ensures !Occurs(p[lo..hi], pat)
  {
    var r := p[lo..hi];
    forall j | 0 <= j && j + |pat| <= |r| ensures !OccursAt(r, pat, j) {
      var a, b := r[j..j + |pat|], p[lo + j..lo + j + |pat|];
      assert forall k :: 0 <= k < |pat| ==> a[k] == p[lo + j + k] == b[k];
      assert a == b;
      assert !OccursAt(p, pat, lo + j);
    }
  }

  /**
   * With equal separators `decode` accepts no non-blank text: a fragment holds
   * no gate separator, hence no angle separator, so it never splits into two
   * parts, and the first fragment fails.
   */
  lemma DecodeEqualSeparators(lib: Library, sep: string, s: string, vars: map<string, real>)
    requires |sep| > 0
    ensures Fragments(Symbols(sep, sep), s) != [] ==>
      Decode(lib, Symbols(sep, sep), s, vars) == Err(FieldCount(Fragments(Symbols(sep, sep), s)[0], 1))
  {
    var cfg := Symbols(sep, sep);
    if Fragments(cfg, s) != [] {
      var f := Fragments(cfg, s)[0];
      FragmentsFree(cfg, s);
      assert Split(f, sep) == [f];
      assert DecodeFragment(lib, cfg, f, vars) == Err(FieldCount(f, 1));
    }
  }
}

=== FILE: compiler.dfy ===
/**
 * `compile` (Hadamard elimination) and `prune_circuit` (dropping rotations
 * whose angle, reduced to [0, 4 pi), is at most the threshold).
 */
module Compiler {
  import opened Results
  import opened Text
  import opened Seqs
  import opened Angles
  import opened Circuits

  /** `gate.name.lower() == "h"`. */
  predicate IsHadamard(g: Gate) {
    Lower(g.name) == "h"
  }

  /** The angle an H gate contributes to its middle rotation: its parameter times pi, or pi. */
  function HadamardAngle(g: Gate): Expr {
    match g.parameter
    case Some(e) => Scale(Pi, e)
    case None => Const(1.0 * Pi)
  }

  /** The three rotations an H gate is replaced by. */
  function Decompose(g: Gate): seq<Gate> {
    [Ry(-Pi / 4.0, g.target), Rz(HadamardAngle(g), g.target, g.control), Ry(Pi / 4.0, g.target)]
  }

  /** What one gate becomes under `compile`. */
  function Expand(g: Gate): seq<Gate> {
    if IsHadamard(g) then Decompose(g) else [g]
  }

  function HadamardCount(c: seq<Gate>): (n: nat)
    ensures n <= |c|
    decreases |c|
  {
    if |c| == 0 then 0 else HadamardCount(c[..|c| - 1]) + (if IsHadamard(c[|c| - 1]) then 1 else 0)
  }

  /**
   * `compile`: every H gate replaced by its three rotations, every other gate
   * kept, in order. The result is two gates longer per H gate and holds no H
   * gate.
   */
  function Compile(c: seq<Gate>): (r: seq<Gate>)
    ensures |r| == |c| + 2 * HadamardCount(c)
    ensures forall i :: 0 <= i < |r| ==> !IsHadamard(r[i])
    decreases |c|
  {
    if |c| == 0 then []
    else Compile(c[..|c| - 1]) + Expand(c[|c| - 1])
  }

  /** `compile` of a concatenation is the concatenation of the compiled parts. */
  lemma {:induction false} CompileAppend(a: seq<Gate>, b: seq<Gate>)
    ensures Compile(a + b) == Compile(a) + Compile(b)
    ensures HadamardCount(a + b) == HadamardCount(a) + HadamardCount(b)
  {
    forall c: seq<Gate>, g: Gate ensures Compile(c + [g]) == Compile(c) + Expand(g) {
      CompileSnoc(c, g);
    }
    SnocBuiltAppend(Compile, Expand, a, b);
  }

  /** Compiling one more gate appends its expansion. */
  lemma CompileSnoc(c: seq<Gate>, g: Gate)
    ensures Compile(c + [g]) == Compile(c) + Expand(g)
  {
    assert (c + [g])[..|c|] == c;
  }

  /**
   * Where each input gate lands: gate `i` starts at `i` plus two for every H
   * gate before it; an H gate becomes exactly Ry(-pi/4), Rz(angle * pi, same
   * target and control), Ry(pi/4) there, and any other gate is copied there.
   */
  lemma {:induction false} CompilePositions(c: seq<Gate>, i: nat)
    requires i < |c|
    ensures var j := i + 2 * HadamardCount(c[..i]);
      if IsHadamard(c[i]) then j + 3 <= |Compile(c)| && Compile(c)[j..j + 3] == Decompose(c[i])
      else j < |Compile(c)| && Compile(c)[j] == c[i]
  {
    assert c == c[..i] + [c[i]] + c[i + 1..];
    CompileAppend(c[..i] + [c[i]], c[i + 1..]);
    CompileAppend(c[..i], [c[i]]);
    assert Compile([c[i]]) == Expand(c[i]) by {
      assert [c[i]][..0] == [];
    }
  }

  /** A circuit without H gates compiles to itself. */
  lemma {:induction false} CompileIdentity(c: seq<Gate>)
    requires forall i :: 0 <= i < |c| ==> !IsHadamard(c[i])
    ensures Compile(c) == c
  {
    var plain := g => !IsHadamard(g);
    forall d: seq<Gate>, g: Gate | plain(g) ensures Compile(d + [g]) == Compile(d) + [g] {
      CompileSnoc(d, g);
    }
    SnocBuiltFixes(Compile, plain, c);
  }

  /** Compiling twice is compiling once. */
  lemma {:induction false} CompileIdempotent(c: seq<Gate>)
    ensures Compile(Compile(c)) == Compile(c)
  {
    CompileIdentity(Compile(c));
  }

  /** `prune_circuit` fails when `gate.parameter(variables)` raises: the names the angle could not resolve. */
  datatype PruneError = UnresolvedAngle(names: seq<string>)

  /** The gate's angle can be evaluated under `vars` (or it has none). */
  predicate Evaluable(g: Gate, vars: map<string, real>) {
    g.parameter.None? || Vars(g.parameter.value) <= vars.Keys
  }

  /**
   * The gate survives pruning: it has no angle, or its angle reduced into
   * [0, 4 pi) is farther than `threshold` from 0.
   */
  predicate Survives(g: Gate, vars: map<string, real>, threshold: real) {
    match g.parameter
    case None => true
    case Some(e) =>
      match Resolve(e, vars)
      case Resolved(x) => !NearZero(FixPeriodicity(x), threshold)
      case Unresolved(_) => true
  }

  /** Gate `i` is the first gate of `c` whose angle cannot be evaluated. */
  predicate FirstUnevaluable(c: seq<Gate>, vars: map<string, real>, i: int) {
    && 0 <= i < |c|
    && !Evaluable(c[i], vars)
    && forall k :: 0 <= k < i ==> Evaluable(c[k], vars)
  }

  /** The survivors of a circuit, in order. */
  function Survivors(c: seq<Gate>, vars: map<string, real>, threshold: real): seq<Gate> {
    Keep(c, g => Survives(g, vars, threshold))
  }

  /**
   * `prune_circuit`: fails on the first gate whose angle cannot be evaluated;
   * otherwise keeps, in order, exactly the gates that have no angle or whose
   * reduced angle is not within `threshold` of 0.
   */
  method Prune(c: seq<Gate>, vars: map<string, real>, threshold: real) returns (r: Result<seq<Gate>, PruneError>)
    ensures r.Ok? <==> forall i :: 0 <= i < |c| ==> Evaluable(c[i], vars)
    ensures r.Ok? ==> r.value == Survivors(c, vars, threshold)
    ensures r.Err? ==> exists i :: FirstUnevaluable(c, vars, i) && r.error == UnresolvedAngle(Names(c[i].parameter.value))
  {
    var gates: seq<Gate> := [];
    for i := 0 to |c|
      invariant forall k :: 0 <= k < i ==> Evaluable(c[k], vars)
      invariant gates == Survivors(c[..i], vars, threshold)
    {
      assert c[..i + 1][..i] == c[..i];
      var gate := c[i];
      match gate.parameter {
        case Some(e) =>
          match Resolve(e, vars) {
            case Resolved(x) =>
              var angle := FixPeriodicity(x);
              if !NearZero(angle, threshold) {
                gates := gates + [gate];
              }
            case Unresolved(names) =>
              assert FirstUnevaluable(c, vars, i);
              return Err(UnresolvedAngle(names));
          }
        case None =>
          gates := gates + [gate];
      }
    }
    assert c[..|c|] == c;
    return Ok(gates);
  }

  /**
   * For an angle already in [0, 4 pi), the near-zero test holds exactly when
   * the angle is at most `threshold`: angles just below 4 pi, a whole period
   * away from 0, are not pruned.
   */
  lemma PruneOnlyNearZero(x: real, threshold: real)
    requires 0.0 <= x < FourPi
    ensures NearZero(FixPeriodicity(x), threshold) <==> x <= threshold
  {
    assert (x - x) / FourPi == 0.0;
    FixPeriodicityUnique(x, x);
  }

  /** Pruning the survivors again with the same variables and threshold drops nothing. */
  lemma PruneIdempotent(c: seq<Gate>, vars: map<string, real>, threshold: real)
    ensures Survivors(Survivors(c, vars, threshold), vars, threshold) == Survivors(c, vars, threshold)
  {
    KeepIdempotent(c, g => Survives(g, vars, threshold));
  }

  /** The k-th survivor is the k-th input gate that survives: pruning is an order-preserving subsequence. */
  lemma PruneKeepsOrder(c: seq<Gate>, vars: map<string, real>, threshold: real)
    ensures var idx := Positions(c, g => Survives(g, vars, threshold));
      && |Survivors(c, vars, threshold)| == |idx|
      && (forall k :: 0 <= k < |idx| ==> Survivors(c, vars, threshold)[k] == c[idx[k]])
      && (forall k, l :: 0 <= k < l < |idx| ==> idx[k] < idx[l])
      && (forall i :: 0 <= i < |c| ==> (i in idx <==> Survives(c[i], vars, threshold)))
  {
    KeepAtPositions(c, g => Survives(g, vars, threshold));
  }
}

=== FILE: connectivity.dfy ===
/**
 * `CircuitGenerator.make_connectivity_map`: which qubits each qubit may be
 * coupled with, built from a key (`all_to_all`, `local_line`, `local_ring`,
 * any letter case) and a qubit count. Qubits are the integers 0 .. n-1; a map
 * is keyed by qubit and lists its neighbours in the order the source builds
 * them.
 */
module Connectivity {
  import opened Results
  import opened Text
  import opened Seqs

  type Neighbours = map<int, seq<int>>

  /** Why no map is built. */
  datatype ConnectivityError =
    | MissingQubitCount     // a key was given without a qubit count
    | UnknownKey(key: string)

  /** Python's `range(lo, hi)`: empty when `hi <= lo`. */
  function Range(lo: int, hi: int): (r: seq<int>)
    ensures |r| == if lo <= hi then hi - lo else 0
    ensures forall i :: 0 <= i < |r| ==> r[i] == lo + i
    ensures forall x :: x in r <==> lo <= x < hi
    decreases hi - lo
  {
    if hi <= lo then [] else [lo] + Range(lo + 1, hi)
  }

  /** Strictly increasing: no repeats, in order. */
  predicate Increasing(s: seq<int>) {
    forall i, j :: 0 <= i < j < |s| ==> s[i] < s[j]
  }

  /** The qubits 0 .. n-1 (none when `n <= 0`, as `range(n)`). */
  function Qubits(n: int): set<int> {
    set k | k in Range(0, n)
  }

  /**
   * `all_to_all`: every qubit is coupled with every other qubit, listed in
   * increasing order, and never with itself.
   */
  function AllToAll(n: int): (m: Neighbours)
    ensures m.Keys == Qubits(n)
    ensures forall k :: k in m ==> forall l :: l in m[k] <==> 0 <= l < n && l != k
  {
    var m := map k | k in Range(0, n) :: Keep(Range(0, n), l => l != k);
    forall k, l | k in m ensures l in m[k] <==> 0 <= l < n && l != k {
      KeepMember(Range(0, n), l => l != k, l);
    }
    m
  }

  /** The neighbours of `k` under `all_to_all` are the qubits below it followed by the qubits above it. */
  lemma AllToAllNeighbours(n: int, k: int)
    requires 0 <= k < n
    ensures AllToAll(n)[k] == Range(0, k) + Range(k + 1, n)
    ensures |AllToAll(n)[k]| == n - 1
    ensures Increasing(AllToAll(n)[k])
  {
    var below, above := Range(0, k), Range(k + 1, n);
    RangeSplit(0, k, n);
    KeepAroundOne(below, k, above);
    assert AllToAll(n)[k] == Keep(Range(0, n), l => l != k);
  }

  /** `range(lo, hi)` is `range(lo, k)`, then `k`, then `range(k + 1, hi)`. */
  lemma RangeSplit(lo: int, k: int, hi: int)
    requires lo <= k < hi
    ensures Range(lo, hi) == Range(lo, k) + [k] + Range(k + 1, hi)
  {
  }

  /** Dropping `k` from a list where it occurs once, between lists without it. */
  lemma KeepAroundOne(below: seq<int>, k: int, above: seq<int>)
    requires k !in below && k !in above
    ensures Keep(below + [k] + above, l => l != k) == below + above
  {
    var p := l => l != k;
    KeepAppend(below + [k], above, p);
    KeepAppend(below, [k], p);
    assert forall i :: 0 <= i < |below| ==> p(below[i]);
    assert forall i :: 0 <= i < |above| ==> p(above[i]);
    KeepAll(below, p);
    KeepAll(above, p);
    KeepNone([k], p);
    var front := Keep(below + [k], p);
    assert front == below;
    assert Keep(below + [k] + above, p) == front + above;
  }

  /** Coupling under `all_to_all` goes both ways. */
  lemma AllToAllSymmetric(n: int, k: int, l: int)
    requires k in AllToAll(n) && l in AllToAll(n)
    ensures l in AllToAll(n)[k] <==> k in AllToAll(n)[l]
  {
  }

  /**
   * `local_ring`: qubit k is coupled with `(k + 1) % n` and `(k - 1) % n`, in
   * that order, with Python's non-negative remainder: the last qubit's next
   * neighbour is 0 and qubit 0's previous neighbour is the last qubit.
   */
  function LocalRing(n: int): (m: Neighbours)
    ensures m.Keys == Qubits(n)
    ensures forall k :: k in m ==> |m[k]| == 2
    ensures forall k :: k in m ==> m[k][0] == (if k == n - 1 then 0 else k + 1)
    ensures forall k :: k in m ==> m[k][1] == (if k == 0 then n - 1 else k - 1)
  {
    var m := map k | k in Range(0, n) :: [(k + 1) % n, (k - 1) % n];
    forall k | k in m
      ensures m[k][0] == (if k == n - 1 then 0 else k + 1)
      ensures m[k][1] == (if k == 0 then n - 1 else k - 1)
    {
      RingStep(n, k);
    }
    m
  }

  /** Python's `%` on the neighbours of a qubit of the ring. */
  lemma RingStep(n: int, k: int)
    requires 0 <= k < n
    ensures (k + 1) % n == if k == n - 1 then 0 else k + 1
    ensures (k - 1) % n == if k == 0 then n - 1 else k - 1
  {
  }

  /** Every `local_ring` neighbour is a qubit, and coupling goes both ways. */
  lemma LocalRingSymmetric(n: int, k: int, l: int)
    requires k in LocalRing(n) && l in LocalRing(n)
    ensures forall i :: 0 <= i < 2 ==> LocalRing(n)[k][i] in LocalRing(n)
    ensures l in LocalRing(n)[k] <==> k in LocalRing(n)[l]
  {
  }

  /**
   * `local_line`: qubit 0 is coupled with 1, the last qubit n-1 with n-2, and
   * each qubit in between with k+1 and k-1, in that order. The last qubit's
   * entry is written last, so for n = 1 it replaces qubit 0's.
   */
  function LocalLine(n: int): (m: Neighbours)
    ensures m.Keys == Qubits(n) + {0, n - 1}
    ensures n != 1 ==> m[0] == [1]
    ensures m[n - 1] == [n - 2]
    ensures forall k :: 0 < k < n - 1 ==> m[k] == [k + 1, k - 1]
  {
    var last := n - 1;
    var interior := Range(1, last);
    (map k | k in interior :: [k + 1, k - 1])[0 := [1]][last := [n - 2]]
  }

  /** For two or more qubits, `local_line` couples each qubit with exactly the qubits next to it. */
  lemma LocalLineNeighbours(n: int, k: int)
    requires n >= 2 && k in LocalLine(n)
    ensures 0 <= k < n
    ensures forall l :: l in LocalLine(n)[k] <==> 0 <= l < n && (l == k + 1 || l == k - 1)
  {
    assert LocalLine(n).Keys == Qubits(n) + {0, n - 1};
    NeighboursOnLine(n, k);
  }

  /** For two or more qubits, every `local_line` neighbour is a qubit, and coupling goes both ways. */
  lemma LocalLineSymmetric(n: int, k: int, l: int)
    requires n >= 2 && k in LocalLine(n) && l in LocalLine(n)[k]
    ensures l in LocalLine(n) && k in LocalLine(n)[l]
  {
    LocalLineNeighbours(n, k);
    NeighboursOnLine(n, l);
  }

  /** The neighbour list of one qubit on a line of two or more. */
  lemma NeighboursOnLine(n: int, k: int)
    requires n >= 2 && 0 <= k < n
    ensures LocalLine(n)[k] == if k == 0 then [1] else if k == n - 1 then [n - 2] else [k + 1, k - 1]
  {
  }

  /** `local_line` with one qubit couples it with -1, which is not a qubit; with none it holds qubits 0 and -1. */
  lemma LocalLineDegenerate()
    ensures LocalLine(1) == map[0 := [-1]]
    ensures LocalLine(0) == map[0 := [1], -1 := [-2]]
  {
  }

  /**
   * `make_connectivity_map` from a key: without a qubit count it fails first;
   * otherwise the key, compared in lower case, selects the map, and any other
   * key fails.
   */
  function MakeConnectivityMap(key: string, n: Option<int>): (r: Result<Neighbours, ConnectivityError>)
    ensures n.None? ==> r == Err(MissingQubitCount)
    ensures r.Ok? <==> n.Some? && Lower(key) in {"all_to_all", "local_line", "local_ring"}
    ensures r.Err? && n.Some? ==> r == Err(UnknownKey(key))
    ensures r.Ok? && Lower(key) == "all_to_all" ==> r.value == AllToAll(n.value)
    ensures r.Ok? && Lower(key) == "local_line" ==> r.value == LocalLine(n.value)
    ensures r.Ok? && Lower(key) == "local_ring" ==> r.value == LocalRing(n.value)
  {
    match n
    case None => Err(MissingQubitCount)
    case Some(count) =>
      var k := Lower(key);
      if k == "all_to_all" then Ok(AllToAll(count))
      else if k == "local_line" then Ok(LocalLine(count))
      else if k == "local_ring" then Ok(LocalRing(count))
      else Err(UnknownKey(key))
  }

  /** The key's ASCII letter case does not matter. */
  lemma {:induction false} KeyCaseInsensitive(key: string, n: Option<int>)
    ensures MakeConnectivityMap(Upper(key), n).Ok? == MakeConnectivityMap(key, n).Ok?
    ensures MakeConnectivityMap(Upper(key), n).Ok? ==> MakeConnectivityMap(Upper(key), n) == MakeConnectivityMap(key, n)
  {
    assert Lower(Upper(key)) == Lower(key);
  }
}

=== FILE: generators.dfy ===
/**
 * How `CircuitGenerator` normalises the generator names it is given: the
 * letters of a name are put in order and upper-cased, so that, as its
 * documentation says, `XY` and `YX` name the same generator. Without a list it
 * uses the nine one- and two-letter names.
 */
module GeneratorNames {
  import opened Results
  import opened Text

  /** The characters are in code-point order, as Python's `sorted` leaves them. */
  predicate Sorted(s: string) {
    forall i, j :: 0 <= i < j < |s| ==> s[i] <= s[j]
  }

  /** `c` placed into a sorted string before the first character not below it. */
  function Insert(c: char, s: string): (r: string)
    requires Sorted(s)
    ensures Sorted(r)
    ensures multiset(r) == multiset(s) + multiset{c}
    decreases |s|
  {
    if |s| == 0 then [c]
    else if c <= s[0] then [c] + s
    else
      var t := Insert(c, s[1..]);
      InsertAbove(c, s, t);
      assert s == [s[0]] + s[1..];
      [s[0]] + t
  }

  /** Inserting into the tail of a sorted string something above its head keeps everything above the head. */
  lemma InsertAbove(c: char, s: string, t: string)
    requires Sorted(s) && |s| > 0 && s[0] < c
    requires multiset(t) == multiset(s[1..]) + multiset{c}
    requires Sorted(t)
    ensures Sorted([s[0]] + t)
  {
    forall i | 0 <= i < |t| ensures s[0] <= t[i] {
      assert t[i] in multiset(t);
      if t[i] != c {
        assert t[i] in multiset(s[1..]);
        var j :| 0 <= j < |s[1..]| && s[1..][j] == t[i];
        assert s[j + 1] == t[i];
      }
    }
  }

  /** `"".join(sorted(s))`. */
  function SortChars(s: string): (r: string)
    ensures Sorted(r)
    ensures multiset(r) == multiset(s)
    ensures |r| == |s|
    decreases |s|
  {
    if |s| == 0 then []
    else
      assert s == [s[0]] + s[1..];
      var r := Insert(s[0], SortChars(s[1..]));
      assert |r| == |multiset(r)| == |multiset(s)| == |s|;
      r
  }

  /** Two sorted strings with the same characters are the same string. */
  lemma {:induction false} SortedUnique(a: string, b: string)
    requires Sorted(a) && Sorted(b) && multiset(a) == multiset(b)
    ensures a == b
    decreases |a|
  {
    if |a| > 0 {
      SameHead(a, b);
      assert a == [a[0]] + a[1..];
      assert b == [b[0]] + b[1..];
      assert multiset(a[1..]) == multiset(a) - multiset{a[0]};
      assert multiset(b[1..]) == multiset(b) - multiset{b[0]};
      SortedUnique(a[1..], b[1..]);
    }
  }

  /** Two non-empty sorted strings with the same characters start with the same, smallest, character. */
  lemma SameHead(a: string, b: string)
    requires Sorted(a) && Sorted(b) && multiset(a) == multiset(b) && |a| > 0
    ensures |b| == |a| && a[0] == b[0]
  {
    assert |b| == |multiset(b)| == |multiset(a)| == |a|;
    assert a[0] in multiset(b);
    assert b[0] in multiset(a);
    var i :| 0 <= i < |b| && b[i] == a[0];
    var j :| 0 <= j < |a| && a[j] == b[0];
  }

  /** `sorted` is characterised by its result: the one sorted string with the same characters. */
  lemma {:induction false} SortCharsCharacterised(s: string, r: string)
    ensures SortChars(s) == r <==> Sorted(r) && multiset(r) == multiset(s)
  {
    if Sorted(r) && multiset(r) == multiset(s) {
      SortedUnique(SortChars(s), r);
    }
  }

  /** The sorted string with the characters of `x` is `SortChars(x)`. */
  lemma SortedPermutation(x: string)
    ensures forall t :: Sorted(t) && multiset(t) == multiset(x) ==> t == SortChars(x)
  {
    forall t | Sorted(t) && multiset(t) == multiset(x) ensures t == SortChars(x) {
      SortedUnique(t, SortChars(x));
    }
  }

  /**
   * The normalisation as written: sort the characters, then upper-case them.
   * The result is the upper-casing of the one sorted string with the
   * characters of `x`, so order is fixed before case is folded.
   */
  function GeneratorNameAsWritten(x: string): (r: string)
    ensures |r| == |x|
    ensures forall t :: Sorted(t) && multiset(t) == multiset(x) ==> r == Upper(t)
  {
    SortedPermutation(x);
    Upper(SortChars(x))
  }

  /** Names with the same characters, case included, normalise alike as written: `XY` and `YX` give `XY`. */
  lemma AsWrittenSameCharacters(x: string, y: string)
    requires multiset(x) == multiset(y)
    ensures GeneratorNameAsWritten(x) == GeneratorNameAsWritten(y)
  {
    SortedPermutation(y);
  }

  /**
   * Sorting before upper-casing orders lower-case letters after all upper-case
   * ones, so `xY` and `XY`, the same letters up to case, normalise differently.
   */
  lemma {:induction false} AsWrittenMixedCase()
    ensures multiset(Upper("xY")) == multiset(Upper("XY"))
    ensures GeneratorNameAsWritten("xY") == "YX"
    ensures GeneratorNameAsWritten("XY") == "XY"
    ensures GeneratorNameAsWritten("YX") == "XY"
  {
    UpperTwo('x', 'Y');
    UpperTwo('X', 'Y');
    AsWrittenTwo('x', 'Y');
    AsWrittenTwo('X', 'Y');
    AsWrittenTwo('Y', 'X');
  }

  lemma UpperTwo(c: char, d: char)
    ensures Upper([c, d]) == [UpperChar(c), UpperChar(d)]
  {
  }

  lemma AsWrittenTwo(c: char, d: char)
    ensures GeneratorNameAsWritten([c, d]) == if c <= d then [UpperChar(c), UpperChar(d)] else [UpperChar(d), UpperChar(c)]
  {
    SortTwo(c, d);
    if c <= d {
      UpperTwo(c, d);
    } else {
      UpperTwo(d, c);
    }
  }

  /** Sorting two characters. */
  lemma SortTwo(c: char, d: char)
    ensures SortChars([c, d]) == if c <= d then [c, d] else [d, c]
  {
    assert [c, d][1..] == [d];
    assert [d][1..] == [];
    assert SortChars([d]) == [d];
  }

  /** The normalisation as intended: upper-case the characters, then sort them. */
  function GeneratorName(x: string): (r: string)
    ensures Sorted(r)
    ensures multiset(r) == multiset(Upper(x))
  {
    SortChars(Upper(x))
  }

  /** Two names denote the same generator exactly when they have the same letters up to case. */
  lemma GeneratorNameSameLetters(x: string, y: string)
    ensures GeneratorName(x) == GeneratorName(y) <==> multiset(Upper(x)) == multiset(Upper(y))
  {
    if multiset(Upper(x)) == multiset(Upper(y)) {
      SortedUnique(GeneratorName(x), GeneratorName(y));
    }
  }

  /** A normalised name is its own normalisation. */
  lemma {:induction false} GeneratorNameIdempotent(x: string)
    ensures GeneratorName(GeneratorName(x)) == GeneratorName(x)
  {
    var r := GeneratorName(x);
    forall i | 0 <= i < |r| ensures UpperChar(r[i]) == r[i] {
      assert r[i] in multiset(Upper(x));
    }
    assert Upper(r) == r;
    SortCharsCharacterised(r, r);
  }

  /** The generators used when none are given. */
  const DefaultGenerators: seq<string> := ["X", "Y", "Z", "XX", "YY", "ZZ", "XY", "XZ", "YZ"]

  /**
   * The generator list of a `CircuitGenerator`, as written: each given name
   * sorted and then upper-cased, in order, or the defaults.
   */
  function Generators(given: Option<seq<string>>): (r: seq<string>)
    ensures given.None? ==> r == DefaultGenerators
    ensures given.Some? ==> |r| == |given.value|
    ensures given.Some? ==> forall k :: 0 <= k < |r| ==>
      |r[k]| == |given.value[k]| && forall t :: Sorted(t) && multiset(t) == multiset(given.value[k]) ==> r[k] == Upper(t)
  {
    match given
    case None => DefaultGenerators
    case Some(names) => seq(|names|, k requires 0 <= k < |names| => GeneratorNameAsWritten(names[k]))
  }

  /** The generator list with the corrected normalisation: upper-case, then sort. */
  function GeneratorsCorrected(given: Option<seq<string>>): (r: seq<string>)
    ensures given.None? ==> r == DefaultGenerators
    ensures given.Some? ==> |r| == |given.value|
    ensures given.Some? ==> forall k :: 0 <= k < |r| ==> Sorted(r[k]) && multiset(r[k]) == multiset(Upper(given.value[k]))
  {
    match given
    case None => DefaultGenerators
    case Some(names) => seq(|names|, k requires 0 <= k < |names| => GeneratorName(names[k]))
  }

  /** Normalising the list as written twice is not normalising it once: `["xY"]` becomes `["YX"]`, then `["XY"]`. */
  lemma {:induction false} GeneratorsAsWrittenNotIdempotent()
    ensures Generators(Some(["xY"])) == ["YX"]
    ensures Generators(Some(Generators(Some(["xY"])))) == ["XY"]
  {
    AsWrittenMixedCase();
    GeneratorsSingle("xY");
    GeneratorsSingle("YX");
  }

  /** The list of one name is the list of its normalisation. */
  lemma GeneratorsSingle(x: string)
    ensures Generators(Some([x])) == [GeneratorNameAsWritten(x)]
  {
    var g := Generators(Some([x]));
    assert |g| == 1 && g[0] == GeneratorNameAsWritten(x);
  }

  /** A sorted upper-case name is its own normalisation, in either order. */
  lemma NormalisedFixed(s: string)
    requires Sorted(s) && forall i :: 0 <= i < |s| ==> UpperChar(s[i]) == s[i]
    ensures GeneratorName(s) == s
    ensures GeneratorNameAsWritten(s) == s
  {
    assert Upper(s) == s;
    SortCharsCharacterised(s, s);
  }

  /** The default names are already normalised, as written and as corrected. */
  lemma {:induction false} DefaultsNormalised()
    ensures Generators(Some(DefaultGenerators)) == DefaultGenerators
    ensures GeneratorsCorrected(Some(DefaultGenerators)) == DefaultGenerators
  {
    var d := DefaultGenerators;
    var g := Generators(Some(d));
    var h := GeneratorsCorrected(Some(d));
    forall k | 0 <= k < |d| ensures g[k] == d[k] && h[k] == d[k] {
      NormalisedAt(k);
    }
  }

  lemma {:induction false} NormalisedAt(k: nat)
    requires k < |DefaultGenerators|
    ensures GeneratorName(DefaultGenerators[k]) == DefaultGenerators[k]
    ensures GeneratorNameAsWritten(DefaultGenerators[k]) == DefaultGenerators[k]
  {
    var s := DefaultGenerators[k];
    assert |s| <= 2;
    assert forall i :: 0 <= i < |s| ==> s[i] in "XYZ";
    assert |s| == 2 ==> s[0] <= s[1];
    NormalisedFixed(s);
  }

  /** Normalising a generator list again with the corrected order changes nothing. */
  lemma {:induction false} GeneratorsIdempotent(given: Option<seq<string>>)
    ensures GeneratorsCorrected(Some(GeneratorsCorrected(given))) == GeneratorsCorrected(given)
  {
    if given.Some? {
      var r := GeneratorsCorrected(given);
      forall k | 0 <= k < |r| ensures GeneratorName(r[k]) == r[k] {
        GeneratorNameIdempotent(given.value[k]);
      }
    } else {
      DefaultsNormalised();
    }
  }
}

=== FILE: results.dfy ===
/** Option and Result: the codec's error paths as values instead of Python exceptions. */
module Results {

  datatype Option<+T> = None | Some(value: T)

  datatype Result<+T, +E> = Ok(value: T) | Err(error: E)

  /** `xs[i]` is the first element of `xs` on which `f` fails, with error `e`. */
  ghost predicate FirstFailure<A, B, E>(f: A --> Result<B, E>, xs: seq<A>, i: int, e: E)
    requires forall k :: 0 <= k < |xs| ==> f.requires(xs[k])
  {
    && 0 <= i < |xs|
    && f(xs[i]) == Err(e)
    && forall j :: 0 <= j < i ==> f(xs[j]).Ok?
  }

  /**
   * `f` applied to each element in order, stopping at the first failure, as a
   * Python loop that raises does: all the results when every call succeeds,
   * otherwise the error of the first call that fails.
   */
  function MapAll<A, B, E>(f: A --> Result<B, E>, xs: seq<A>): (r: Result<seq<B>, E>)
    requires forall i :: 0 <= i < |xs| ==> f.requires(xs[i])
    ensures r.Ok? <==> forall i :: 0 <= i < |xs| ==> f(xs[i]).Ok?
    ensures r.Ok? ==> |r.value| == |xs|
    ensures r.Ok? ==> forall i :: 0 <= i < |xs| ==> f(xs[i]) == Ok(r.value[i])
    ensures r.Err? ==> exists i :: FirstFailure(f, xs, i, r.error)
    decreases |xs|
  {
    if |xs| == 0 then Ok([])
    else
      var rest := xs[1..];
      assert forall i :: 0 < i < |xs| ==> xs[i] == rest[i - 1];
      match f(xs[0])
      case Err(e) =>
        assert FirstFailure(f, xs, 0, e);
        Err(e)
      case Ok(y) =>
        match MapAll(f, rest)
        case Err(e) =>
          FailureInTail(f, xs, e);
          Err(e)
        case Ok(ys) =>
          OkAfterHead(f, xs, y, ys);
          Ok([y] + ys)
  }

  /** When `f` succeeds on the head and on every element of the tail, the results line up with the whole list. */
  lemma OkAfterHead<A, B, E>(f: A --> Result<B, E>, xs: seq<A>, y: B, ys: seq<B>)
    requires |xs| > 0 && |ys| == |xs| - 1
    requires forall i :: 0 <= i < |xs| ==> f.requires(xs[i])
    requires f(xs[0]) == Ok(y)
    requires forall i :: 0 < i < |xs| ==> f(xs[i]) == Ok(ys[i - 1])
    ensures forall i :: 0 <= i < |xs| ==> f(xs[i]) == Ok(([y] + ys)[i])
  {
    forall i | 0 < i < |xs|
      ensures f(xs[i]) == Ok(([y] + ys)[i])
    {
      assert ([y] + ys)[i] == ys[i - 1];
    }
  }

  /** The first failure in the tail, after a head that succeeds, is the first failure of the whole list. */
  lemma FailureInTail<A, B, E>(f: A --> Result<B, E>, xs: seq<A>, e: E)
    requires |xs| > 0
    requires forall i :: 0 <= i < |xs| ==> f.requires(xs[i])
    requires f(xs[0]).Ok?
    requires exists i :: FirstFailure(f, xs[1..], i, e)
    ensures exists i :: FirstFailure(f, xs, i, e)
  {
    var rest := xs[1..];
    var i :| FirstFailure(f, rest, i, e);
    assert rest[i] == xs[i + 1];
    forall j | 0 < j < i + 1 ensures f(xs[j]).Ok? {
      assert rest[j - 1] == xs[j];
    }
    assert FirstFailure(f, xs, i + 1, e);
  }
}

=== FILE: roundtrip.dfy ===
/**
 * What `decode` recovers from the output of `encode`. Under one-character
 * separators and stated laws of the circuit library, decoding an encoding
 * yields one exponential per encoded Pauli string, in order, with the same
 * Pauli letters, the encoded coefficient up to the four printed decimals, and
 * the angle the prefix stands for: 1.0 when the angle was numeric (it went into
 * the coefficient), the supplied value or the symbol itself when it was not.
 */
module RoundTrip {
  import opened Results
  import opened Text
  import opened Seqs
  import opened Angles
  import opened Circuits
  import opened Compiler
  import opened Codec

  /** One-character separators, distinct, the angle separator not whitespace (the defaults `|` and `@` are such). */
  predicate SingleChar(cfg: Symbols) {
    && |cfg.gateSeparator| == 1
    && |cfg.angleSeparator| == 1
    && cfg.gateSeparator != cfg.angleSeparator
    && !IsSpace(cfg.angleSeparator[0])
  }

  /** Text that holds neither separator. */
  predicate Clean(cfg: Symbols, s: string) {
    !Occurs(s, cfg.gateSeparator) && !Occurs(s, cfg.angleSeparator)
  }

  /** Half a unit in the fourth decimal: how far `"{:2.4f}"` may move a number. */
  const Precision: real := 0.00005

  /** `r` reads as exactly one Pauli string with the letters of `ps` and a coefficient within `Precision` of `x`. */
  predicate ReadsAs(r: Option<seq<PauliString>>, x: real, ps: PauliString) {
    && r.Some?
    && |r.value| == 1
    && r.value[0].letters == ps.letters
    && -Precision <= r.value[0].coeff - x <= Precision
  }

  /** A name the decoder can give back unchanged: non-blank, stripped, not a number, free of separators. */
  predicate ProperName(lib: Library, cfg: Symbols, n: string) {
    n != "" && Strip(n) == n && lib.parseFloat(n).None? && Clean(cfg, n)
  }

  /**
   * What the round trip needs from the library calls: `float("")` fails; the
   * formatted coefficient and the rendered Pauli letters hold no separator; a
   * non-trivial Pauli string renders non-empty and does not end in whitespace;
   * a formatted coefficient followed by rendered letters reads back as that one
   * Pauli string; a list of proper names renders as a proper name.
   */
  ghost predicate Laws(lib: Library, cfg: Symbols) {
    && lib.parseFloat("").None?
    && (forall x: real :: Clean(cfg, lib.formatCoeff(x)))
    && (forall ps: PauliString :: !IsGlobalPhase(ps) ==> NakedLaw(cfg, lib.naked(ps)))
    && (forall x: real, ps: PauliString :: ReadsAs(lib.fromString(lib.formatCoeff(x) + lib.naked(ps)), x, ps))
    && (forall ns: seq<string> :: AllProper(lib, cfg, ns) ==> ProperName(lib, cfg, lib.nameList(ns)))
  }

  predicate NakedLaw(cfg: Symbols, text: string) {
    text != "" && !IsSpace(text[|text| - 1]) && Clean(cfg, text)
  }

  predicate AllProper(lib: Library, cfg: Symbols, ns: seq<string>) {
    forall k :: 0 <= k < |ns| ==> ProperName(lib, cfg, ns[k])
  }

  /** A term the decoder can read back: not a global phase, and a symbolic angle with a proper text. */
  predicate Readable(lib: Library, cfg: Symbols, t: Term) {
    !IsGlobalPhase(t.ps) && (t.angle.Symbolic? ==> ProperName(lib, cfg, t.angle.text))
  }

  /** The angle `decode` gives an encoded angle: 1.0 for a numeric one, the supplied value or the symbol for a symbolic one. */
  function Redecoded(a: EncodedAngle, dvars: map<string, real>): DecodedAngle {
    match a
    case Numeric(_) => Fixed(1.0)
    case Symbolic(n) => if n in dvars then Fixed(dvars[n]) else Symbol(n)
  }

  /** A decoded gate recovers a term: same letters, the encoded coefficient up to `Precision`, the redecoded angle. */
  predicate Recovers(g: ExpPauliGate, t: Term, dvars: map<string, real>) {
    && g.paulistring.letters == t.ps.letters
    && -Precision <= g.paulistring.coeff - EncodedCoeff(t) <= Precision
    && g.angle == Redecoded(t.angle, dvars)
  }

  /** The token bodies of a sequence of terms. */
  function Bodies(lib: Library, cfg: Symbols, ts: seq<Term>): (r: seq<string>)
    ensures |r| == |ts|
    ensures forall k :: 0 <= k < |ts| ==> r[k] == Body(cfg, MakeToken(lib, ts[k]))
  {
    seq(|ts|, k requires 0 <= k < |ts| => Body(cfg, MakeToken(lib, ts[k])))
  }

  /** A token is its body followed by the gate separator. */
  lemma TokenIsBody(lib: Library, cfg: Symbols, t: Term)
    ensures EncodePauliString(lib, cfg, t.ps, t.angle) == Body(cfg, MakeToken(lib, t)) + cfg.gateSeparator
    ensures MakeToken(lib, t).coeffText == lib.formatCoeff(EncodedCoeff(t))
    ensures MakeToken(lib, t).pauliText == lib.naked(t.ps)
    ensures MakeToken(lib, t).prefix == (if t.angle.Numeric? then "" else t.angle.text)
  {
    assert Term(t.ps, t.angle) == t;
  }

  /** The rendered terms are their bodies joined by the gate separator, with a trailing empty piece. */
  lemma {:induction false} RenderTermsJoin(lib: Library, cfg: Symbols, ts: seq<Term>)
    ensures RenderTerms(lib, cfg, ts) == Join(Bodies(lib, cfg, ts) + [""], cfg.gateSeparator)
    decreases |ts|
  {
    var sep := cfg.gateSeparator;
    if |ts| == 0 {
      assert Bodies(lib, cfg, ts) + [""] == [""];
    } else {
      var init := ts[..|ts| - 1];
      var last := ts[|ts| - 1];
      var b := Body(cfg, MakeToken(lib, last));
      var before := Bodies(lib, cfg, init);
      RenderTermsJoin(lib, cfg, init);
      TokenIsBody(lib, cfg, last);
      assert RenderTerms(lib, cfg, ts) == Join(before + [""], sep) + (b + sep);
      assert Bodies(lib, cfg, ts) == before + [b];
      JoinSnocBlank(before, b, sep);
    }
  }

  /** One more piece before the empty last piece of a join. */
  lemma JoinSnocBlank(xs: seq<string>, b: string, sep: string)
    ensures Join(xs + [b] + [""], sep) == Join(xs + [""], sep) + (b + sep)
  {
    JoinAppend(xs + [b], "", sep);
    if |xs| == 0 {
      assert xs + [b] == [b];
      assert xs + [""] == [""];
    } else {
      JoinAppend(xs, "", sep);
      JoinAppend(xs, b, sep);
    }
  }

  /** Splitting the rendered terms on the gate separator gives the bodies and a trailing empty piece. */
  lemma SplitRendered(lib: Library, cfg: Symbols, ts: seq<Term>)
    requires SingleChar(cfg)
    requires forall k :: 0 <= k < |ts| ==> cfg.gateSeparator[0] !in Body(cfg, MakeToken(lib, ts[k]))
    ensures Split(RenderTerms(lib, cfg, ts), cfg.gateSeparator) == Bodies(lib, cfg, ts) + [""]
  {
    var sep := cfg.gateSeparator;
    var parts := Bodies(lib, cfg, ts) + [""];
    forall k | 0 <= k < |parts| - 1 ensures Delimits(parts[k], sep) {
      DelimitsSingle(parts[k], sep);
    }
    OccursSingle("", sep);
    SplitJoin(parts, sep);
    RenderTermsJoin(lib, cfg, ts);
  }

  /** The fragments of the rendered terms are exactly their bodies, when each body is clean and stripped. */
  lemma {:induction false} FragmentsRendered(lib: Library, cfg: Symbols, ts: seq<Term>)
    requires SingleChar(cfg)
    requires forall k :: 0 <= k < |ts| ==> var b := Body(cfg, MakeToken(lib, ts[k]));
      cfg.gateSeparator[0] !in b && b != "" && Strip(b) == b
    ensures Fragments(cfg, RenderTerms(lib, cfg, ts)) == Bodies(lib, cfg, ts)
  {
    var bodies := Bodies(lib, cfg, ts);
    SplitRendered(lib, cfg, ts);
    BodiesStripped(lib, cfg, ts);
    FragmentsOfPieces(cfg, RenderTerms(lib, cfg, ts), bodies);
  }

  lemma BodiesStripped(lib: Library, cfg: Symbols, ts: seq<Term>)
    requires forall k :: 0 <= k < |ts| ==> var b := Body(cfg, MakeToken(lib, ts[k]));
      b != "" && Strip(b) == b
    ensures var bodies := Bodies(lib, cfg, ts);
      && StripAll(bodies + [""]) == bodies + [""]
      && forall k :: 0 <= k < |bodies| ==> bodies[k] != ""
  {
    var bodies := Bodies(lib, cfg, ts);
    var pieces := bodies + [""];
    assert Strip("") == "";
    forall k | 0 <= k < |pieces| ensures Strip(pieces[k]) == pieces[k] {
      if k < |bodies| {
        assert pieces[k] == bodies[k];
      }
    }
    StripAllFixed(pieces);
  }

  /** When a string splits into stripped non-blank fragments and a final empty piece, those are its fragments. */
  lemma {:induction false} FragmentsOfPieces(cfg: Symbols, s: string, fs: seq<string>)
    requires cfg.Valid()
    requires Split(s, cfg.gateSeparator) == fs + [""]
    requires StripAll(fs + [""]) == fs + [""]
    requires forall k :: 0 <= k < |fs| ==> fs[k] != ""
    ensures Fragments(cfg, s) == fs
  {
    KeepSnoc(fs, "", f => f != "");
    KeepAll(fs, f => f != "");
  }

  lemma StripAllFixed(pieces: seq<string>)
    requires forall k :: 0 <= k < |pieces| ==> Strip(pieces[k]) == pieces[k]
    ensures StripAll(pieces) == pieces
  {
  }

  /** The body of a readable term is clean, non-empty, stripped, and splits on the angle separator into its prefix and the rest. */
  lemma {:induction false} BodyShape(lib: Library, cfg: Symbols, t: Term)
    requires SingleChar(cfg) && Laws(lib, cfg) && Readable(lib, cfg, t)
    ensures var tok := MakeToken(lib, t);
      var b := Body(cfg, tok);
      && cfg.gateSeparator[0] !in b
      && b != ""
      && Strip(b) == b
      && Split(b, cfg.angleSeparator) == [tok.prefix, tok.coeffText + tok.pauliText]
  {
    var tok := MakeToken(lib, t);
    TokenIsBody(lib, cfg, t);
    var p, c, n := tok.prefix, tok.coeffText, tok.pauliText;
    assert Clean(cfg, c);
    assert NakedLaw(cfg, n);
    assert p == "" || ProperName(lib, cfg, p);
    CleanChars(cfg, c);
    CleanChars(cfg, n);
    CleanChars(cfg, p);
    FieldsShape(cfg, p, c, n);
  }

  /**
   * Fields free of both separator characters, a prefix that is empty or
   * stripped, and a non-empty Pauli text that does not end in whitespace make a
   * body with the shape `decode` needs.
   */
  lemma {:induction false} FieldsShape(cfg: Symbols, p: string, c: string, n: string)
    requires SingleChar(cfg)
    requires cfg.gateSeparator[0] !in p + c + n && cfg.angleSeparator[0] !in p + c + n
    requires p == "" || Strip(p) == p
    requires n != "" && !IsSpace(n[|n| - 1])
    ensures var b := p + cfg.angleSeparator + c + n;
      && cfg.gateSeparator[0] !in b
      && b != ""
      && Strip(b) == b
      && Split(b, cfg.angleSeparator) == [p, c + n]
  {
    var a := cfg.angleSeparator;
    var b := p + a + c + n;
    FieldsClean(cfg, p, c, n);
    FieldsStripped(cfg, p, c, n);
    FieldsSplit(cfg, p, c, n);
  }

  lemma FieldsClean(cfg: Symbols, p: string, c: string, n: string)
    requires SingleChar(cfg)
    requires cfg.gateSeparator[0] !in p + c + n
    ensures cfg.gateSeparator[0] !in p + cfg.angleSeparator + c + n
  {
    var b := p + cfg.angleSeparator + c + n;
    forall k | 0 <= k < |b| ensures b[k] != cfg.gateSeparator[0] {
      if k < |p| {
        assert b[k] == (p + c + n)[k];
      } else if k > |p| {
        assert b[k] == (p + c + n)[k - 1];
      }
    }
  }

  lemma FieldsStripped(cfg: Symbols, p: string, c: string, n: string)
    requires SingleChar(cfg)
    requires p == "" || Strip(p) == p
    requires n != "" && !IsSpace(n[|n| - 1])
    ensures var b := p + cfg.angleSeparator + c + n;
      b != "" && Strip(b) == b
  {
    var a := cfg.angleSeparator;
    var b := p + a + c + n;
    assert !IsSpace(b[|b| - 1]) by {
      assert b[|b| - 1] == n[|n| - 1];
    }
    assert !IsSpace(b[0]) by {
      if p == "" {
        assert b[0] == a[0];
      } else {
        var q := Strip(p);
        assert !IsSpace(q[0]);
        assert b[0] == p[0];
      }
    }
    StripFixed(b);
  }

  lemma FieldsSplit(cfg: Symbols, p: string, c: string, n: string)
    requires SingleChar(cfg)
    requires cfg.angleSeparator[0] !in p + c + n
    ensures Split(p + cfg.angleSeparator + c + n, cfg.angleSeparator) == [p, c + n]
  {
    var a := cfg.angleSeparator;
    var rest := c + n;
    assert p + c + n == p + rest;
    assert a[0] !in p by { assert forall k :: 0 <= k < |p| ==> p[k] == (p + rest)[k]; }
    assert a[0] !in rest by { assert forall k :: 0 <= k < |rest| ==> rest[k] == (p + rest)[|p| + k]; }
    DelimitsSingle(p, a);
    OccursSingle(rest, a);
    SplitJoin([p, rest], a);
    assert Join([p, rest], a) == p + a + c + n;
  }

  /** For one-character separators, clean text holds neither separator character. */
  lemma CleanChars(cfg: Symbols, s: string)
    requires SingleChar(cfg)
    ensures Clean(cfg, s) <==> cfg.gateSeparator[0] !in s && cfg.angleSeparator[0] !in s
  {
    OccursSingle(s, cfg.gateSeparator);
    OccursSingle(s, cfg.angleSeparator);
  }

  /** The prefix `encode_paulistring` writes reads back as the angle it stands for. */
  lemma PrefixRoundTrip(lib: Library, cfg: Symbols, t: Term, dvars: map<string, real>)
    requires lib.parseFloat("").None? && Readable(lib, cfg, t)
    ensures ResolvePrefix(lib, MakeToken(lib, t).prefix, dvars) == Redecoded(t.angle, dvars)
  {
    TokenIsBody(lib, cfg, t);
    assert Strip("") == "";
  }

  /** The coefficient and letters `encode_paulistring` writes read back as the term's Pauli string. */
  lemma PauliTextRoundTrip(lib: Library, cfg: Symbols, t: Term)
    requires Laws(lib, cfg)
    ensures var tok := MakeToken(lib, t);
      ReadsAs(lib.fromString(tok.coeffText + tok.pauliText), EncodedCoeff(t), t.ps)
  {
    TokenIsBody(lib, cfg, t);
    var x := EncodedCoeff(t);
    assert ReadsAs(lib.fromString(lib.formatCoeff(x) + lib.naked(t.ps)), x, t.ps);
  }

  /** A fragment made of a prefix and a readable Pauli text decodes to their gate. */
  lemma DecodeFragmentOf(lib: Library, cfg: Symbols, b: string, p: string, rest: string, x: real, t: Term, dvars: map<string, real>)
    requires cfg.Valid()
    requires Split(b, cfg.angleSeparator) == [p, rest]
    requires ReadsAs(lib.fromString(rest), EncodedCoeff(t), t.ps)
    requires ResolvePrefix(lib, p, dvars) == Redecoded(t.angle, dvars)
    ensures var r := DecodeFragment(lib, cfg, b, dvars);
      r.Ok? && Recovers(r.value, t, dvars)
  {
  }

  /** The body of a readable term decodes to a gate that recovers it. */
  lemma DecodeBody(lib: Library, cfg: Symbols, t: Term, dvars: map<string, real>)
    requires SingleChar(cfg) && Laws(lib, cfg) && Readable(lib, cfg, t)
    ensures var r := DecodeFragment(lib, cfg, Body(cfg, MakeToken(lib, t)), dvars);
      r.Ok? && Recovers(r.value, t, dvars)
  {
    var tok := MakeToken(lib, t);
    BodyShape(lib, cfg, t);
    PrefixRoundTrip(lib, cfg, t, dvars);
    PauliTextRoundTrip(lib, cfg, t);
    DecodeFragmentOf(lib, cfg, Body(cfg, tok), tok.prefix, tok.coeffText + tok.pauliText, EncodedCoeff(t), t, dvars);
  }

  /**
   * Decoding rendered terms: when every term is readable, `decode` succeeds and
   * gives one gate per term, in order, each recovering its term.
   */
  lemma {:induction false} DecodeRendered(lib: Library, cfg: Symbols, ts: seq<Term>, dvars: map<string, real>)
    requires SingleChar(cfg) && Laws(lib, cfg)
    requires forall k :: 0 <= k < |ts| ==> Readable(lib, cfg, ts[k])
    ensures var r := Decode(lib, cfg, RenderTerms(lib, cfg, ts), dvars);
      && r.Ok?
      && |r.value| == |ts|
      && forall k :: 0 <= k < |ts| ==> Recovers(r.value[k], ts[k], dvars)
  {
    var bodies := Bodies(lib, cfg, ts);
    forall k | 0 <= k < |ts|
      ensures var b := Body(cfg, MakeToken(lib, ts[k]));
        cfg.gateSeparator[0] !in b && b != "" && Strip(b) == b
      ensures var r := DecodeFragment(lib, cfg, bodies[k], dvars);
        r.Ok? && Recovers(r.value, ts[k], dvars)
    {
      BodyShape(lib, cfg, ts[k]);
      DecodeBody(lib, cfg, ts[k], dvars);
    }
    FragmentsRendered(lib, cfg, ts);
    DecodeOfFragments(lib, cfg, RenderTerms(lib, cfg, ts), ts, dvars);
  }

  /** A string whose fragments are the bodies of terms, each decoding to a gate that recovers its term, decodes to those gates. */
  lemma {:induction false} DecodeOfFragments(lib: Library, cfg: Symbols, s: string, ts: seq<Term>, dvars: map<string, real>)
    requires cfg.Valid()
    requires Fragments(cfg, s) == Bodies(lib, cfg, ts)
    requires forall k :: 0 <= k < |ts| ==> var r := DecodeFragment(lib, cfg, Bodies(lib, cfg, ts)[k], dvars);
      r.Ok? && Recovers(r.value, ts[k], dvars)
    ensures var r := Decode(lib, cfg, s, dvars);
      && r.Ok?
      && |r.value| == |ts|
      && forall k :: 0 <= k < |ts| ==> Recovers(r.value[k], ts[k], dvars)
  {
    var fs := Fragments(cfg, s);
    var r := Decode(lib, cfg, s, dvars);
    assert r.Ok?;
    forall k | 0 <= k < |ts| ensures Recovers(r.value[k], ts[k], dvars) {
      assert DecodeFragment(lib, cfg, fs[k], dvars) == Ok(r.value[k]);
    }
  }

  /** The parameter of a gate refers only to proper names. */
  predicate NamesProper(lib: Library, cfg: Symbols, g: Gate) {
    g.parameter.Some? ==> forall n :: n in Vars(g.parameter.value) ==> ProperName(lib, cfg, n)
  }

  /** `compile` introduces no variable names: its gates refer to proper names when the input's do. */
  lemma {:induction false} CompileKeepsNames(lib: Library, cfg: Symbols, c: seq<Gate>)
    requires forall i :: 0 <= i < |c| ==> NamesProper(lib, cfg, c[i])
    ensures forall i :: 0 <= i < |Compile(c)| ==> NamesProper(lib, cfg, Compile(c)[i])
    decreases |c|
  {
    if |c| > 0 {
      var front := Compile(c[..|c| - 1]);
      var tail := Expand(c[|c| - 1]);
      CompileKeepsNames(lib, cfg, c[..|c| - 1]);
      ExpandKeepsNames(lib, cfg, c[|c| - 1]);
      assert Compile(c) == front + tail;
      forall i | 0 <= i < |front + tail| ensures NamesProper(lib, cfg, (front + tail)[i]) {
        if i >= |front| {
          assert (front + tail)[i] == tail[i - |front|];
        }
      }
    }
  }

  /** The gates an H gate is replaced by refer to no names but the H gate's. */
  lemma ExpandKeepsNames(lib: Library, cfg: Symbols, g: Gate)
    requires NamesProper(lib, cfg, g)
    ensures forall i :: 0 <= i < |Expand(g)| ==> NamesProper(lib, cfg, Expand(g)[i])
  {
    assert Vars(HadamardAngle(g)) <= (if g.parameter.Some? then Vars(g.parameter.value) else {});
  }

  /** Every term of a circuit whose gates refer to proper names is readable. */
  lemma {:induction false} TermsReadable(lib: Library, cfg: Symbols, c: seq<Gate>, vars: map<string, real>)
    requires Laws(lib, cfg)
    requires forall i :: 0 <= i < |c| ==> NamesProper(lib, cfg, c[i])
    ensures forall k :: 0 <= k < |Terms(lib, c, vars)| ==> Readable(lib, cfg, Terms(lib, c, vars)[k])
    decreases |c|
  {
    if |c| > 0 {
      TermsReadable(lib, cfg, c[..|c| - 1], vars);
      GateTermsReadable(lib, cfg, c[|c| - 1], vars);
    }
  }

  lemma GateTermsReadable(lib: Library, cfg: Symbols, g: Gate, vars: map<string, real>)
    requires Laws(lib, cfg) && NamesProper(lib, cfg, g)
    ensures forall k :: 0 <= k < |GateTerms(lib, g, vars)| ==> Readable(lib, cfg, GateTerms(lib, g, vars)[k])
  {
    var angle := GateAngle(lib, g, vars);
    if angle.Symbolic? && |Vars(g.parameter.value)| != 1 {
      NamesOfGateProper(lib, cfg, g);
    }
    assert angle.Symbolic? ==> ProperName(lib, cfg, angle.text);
    var pss := NonTrivial(lib.generator(g));
    assert forall k :: 0 <= k < |pss| ==> !IsGlobalPhase(pss[k]);
  }

  /** The variable names of a gate with proper names are all proper. */
  lemma NamesOfGateProper(lib: Library, cfg: Symbols, g: Gate)
    requires g.parameter.Some? && NamesProper(lib, cfg, g)
    ensures AllProper(lib, cfg, Names(g.parameter.value))
  {
    var ns := Names(g.parameter.value);
    assert forall k :: 0 <= k < |ns| ==> ns[k] in Vars(g.parameter.value);
  }

  /**
   * Encoding then decoding a circuit whose variables have proper names: the
   * decoded circuit has one gate per encoded term of the compiled circuit, in
   * order, each with the term's Pauli letters, its encoded coefficient up to
   * the printed precision, and the angle its prefix stands for.
   */
  lemma {:induction false} EncodeDecode(lib: Library, cfg: Symbols, circuit: seq<Gate>, vars: map<string, real>, dvars: map<string, real>)
    requires SingleChar(cfg) && Laws(lib, cfg)
    requires forall i :: 0 <= i < |circuit| ==> NamesProper(lib, cfg, circuit[i])
    ensures var ts := Terms(lib, Compile(circuit), vars);
      var r := Decode(lib, cfg, RenderTerms(lib, cfg, ts), dvars);
      && r.Ok?
      && |r.value| == |ts|
      && forall k :: 0 <= k < |ts| ==> Recovers(r.value[k], ts[k], dvars)
  {
    CompileKeepsNames(lib, cfg, circuit);
    TermsReadable(lib, cfg, Compile(circuit), vars);
    DecodeRendered(lib, cfg, Terms(lib, Compile(circuit), vars), dvars);
  }

  /** A one-character gate separator appended to any string changes nothing that `decode` reads; the angle separator is unconstrained. */
  lemma {:induction false} DecodeTrailingSeparator(lib: Library, cfg: Symbols, s: string, dvars: map<string, real>)
    requires cfg.Valid() && |cfg.gateSeparator| == 1
    ensures Fragments(cfg, s + cfg.gateSeparator) == Fragments(cfg, s)
    ensures Decode(lib, cfg, s + cfg.gateSeparator, dvars) == Decode(lib, cfg, s, dvars)
  {
    FragmentsTrailingSeparator(cfg, s);
  }

  lemma {:induction false} FragmentsTrailingSeparator(cfg: Symbols, s: string)
    requires cfg.Valid() && |cfg.gateSeparator| == 1
    ensures Fragments(cfg, s + cfg.gateSeparator) == Fragments(cfg, s)
  {
    var pieces := Split(s, cfg.gateSeparator);
    SplitAppendSeparator(s, cfg.gateSeparator);
    FragmentsOfSplit(cfg, s, pieces);
    FragmentsOfSplit(cfg, s + cfg.gateSeparator, pieces + [""]);
    StripAllBlank(pieces);
  }

  /** An empty last piece strips to nothing and is dropped as blank. */
  lemma {:induction false} StripAllBlank(pieces: seq<string>)
    ensures Keep(StripAll(pieces + [""]), f => f != "") == Keep(StripAll(pieces), f => f != "")
  {
    StripAllSnoc(pieces, "");
    assert Strip("") == "";
    KeepSnoc(StripAll(pieces), "", f => f != "");
  }

  lemma FragmentsOfSplit(cfg: Symbols, s: string, pieces: seq<string>)
    requires cfg.Valid() && Split(s, cfg.gateSeparator) == pieces
    ensures Fragments(cfg, s) == Keep(StripAll(pieces), f => f != "")
  {
  }

  lemma StripAllSnoc(pieces: seq<string>, x: string)
    ensures StripAll(pieces + [x]) == StripAll(pieces) + [Strip(x)]
  {
  }
}

=== FILE: seqs.dfy ===
/**
 * Order-preserving filtering of sequences. Decoding skips blank fragments,
 * encoding skips global-phase Pauli strings, pruning drops near-zero rotations
 * and the all-to-all neighbour list drops the qubit itself: all four are this one
 * shape, Python's `[x for x in s if p(x)]`.
 */
module Seqs {

  /** The elements of `s` that satisfy `p`, in their original order. */
  function Keep<T>(s: seq<T>, p: T -> bool): (r: seq<T>)
    ensures |r| <= |s|
    ensures forall k :: 0 <= k < |r| ==> r[k] in s && p(r[k])
    ensures forall i :: 0 <= i < |s| && p(s[i]) ==> s[i] in r
    decreases |s|
  {
    if |s| == 0 then []
    else
      assert s == s[..|s| - 1] + [s[|s| - 1]];
      Keep(s[..|s| - 1], p) + (if p(s[|s| - 1]) then [s[|s| - 1]] else [])
  }

  /** The indices of the elements of `s` that satisfy `p`, strictly increasing. */
  function Positions<T>(s: seq<T>, p: T -> bool): (r: seq<nat>)
    ensures forall k :: 0 <= k < |r| ==> r[k] < |s| && p(s[r[k]])
    ensures forall k, l :: 0 <= k < l < |r| ==> r[k] < r[l]
    ensures forall i :: 0 <= i < |s| && p(s[i]) ==> i in r
    decreases |s|
  {
    if |s| == 0 then []
    else Positions(s[..|s| - 1], p) + (if p(s[|s| - 1]) then [|s| - 1] else [])
  }

  /** The k-th kept element is the element at the k-th satisfying position: `Keep` is an order-preserving subsequence. */
  lemma {:induction false} KeepAtPositions<T>(s: seq<T>, p: T -> bool)
    ensures |Keep(s, p)| == |Positions(s, p)|
    ensures forall k :: 0 <= k < |Positions(s, p)| ==> Keep(s, p)[k] == s[Positions(s, p)[k]]
    decreases |s|
  {
    if |s| > 0 {
      var s', x := s[..|s| - 1], s[|s| - 1];
      KeepAtPositions(s', p);
      var kept, at := Keep(s', p), Positions(s', p);
      assert Keep(s, p) == kept + (if p(x) then [x] else []);
      assert Positions(s, p) == at + (if p(x) then [|s| - 1] else []);
      forall k | 0 <= k < |Positions(s, p)|
        ensures Keep(s, p)[k] == s[Positions(s, p)[k]]
      {
        if k < |at| {
          assert Keep(s, p)[k] == kept[k];
          assert Positions(s, p)[k] == at[k];
          assert s'[at[k]] == s[at[k]];
        }
      }
    }
  }

  /** Filtering a sequence with one more element at the end. */
  lemma KeepSnoc<T>(s: seq<T>, x: T, p: T -> bool)
    ensures Keep(s + [x], p) == Keep(s, p) + (if p(x) then [x] else [])
  {
    assert (s + [x])[..|s + [x]| - 1] == s;
  }

  /** Filtering distributes over concatenation. */
  lemma {:induction false} KeepAppend<T>(a: seq<T>, b: seq<T>, p: T -> bool)
    ensures Keep(a + b, p) == Keep(a, p) + Keep(b, p)
    decreases |b|
  {
    if |b| == 0 {
      assert a + b == a;
    } else {
      assert (a + b)[..|a + b| - 1] == a + b[..|b| - 1];
      KeepAppend(a, b[..|b| - 1], p);
    }
  }

  /** When every element satisfies `p`, nothing is dropped. */
  lemma {:induction false} KeepAll<T>(s: seq<T>, p: T -> bool)
    requires forall i :: 0 <= i < |s| ==> p(s[i])
    ensures Keep(s, p) == s
    decreases |s|
  {
    if |s| > 0 {
      KeepAll(s[..|s| - 1], p);
      assert s == s[..|s| - 1] + [s[|s| - 1]];
    }
  }

  /** When no element satisfies `p`, everything is dropped. */
  lemma {:induction false} KeepNone<T>(s: seq<T>, p: T -> bool)
    requires forall i :: 0 <= i < |s| ==> !p(s[i])
    ensures Keep(s, p) == []
    decreases |s|
  {
    if |s| > 0 {
      KeepNone(s[..|s| - 1], p);
    }
  }

  /** An element is kept exactly when it occurs and satisfies `p`. */
  lemma KeepMember<T>(s: seq<T>, p: T -> bool, x: T)
    ensures x in Keep(s, p) <==> x in s && p(x)
  {
    if x in Keep(s, p) {
      var k :| 0 <= k < |Keep(s, p)| && Keep(s, p)[k] == x;
    }
  }

  /** Filtering twice by the same predicate drops nothing more. */
  lemma KeepIdempotent<T>(s: seq<T>, p: T -> bool)
    ensures Keep(Keep(s, p), p) == Keep(s, p)
  {
    KeepAll(Keep(s, p), p);
  }

  /**
   * A list function built one element at a time, `F(c + [x]) == F(c) + f(x)`
   * from `F([]) == []`, maps a concatenation to the concatenation of its parts.
   */
  lemma {:induction false} SnocBuiltAppend<A, B>(F: seq<A> -> seq<B>, f: A -> seq<B>, a: seq<A>, b: seq<A>)
    requires F([]) == []
    requires forall c, x :: F(c + [x]) == F(c) + f(x)
    ensures F(a + b) == F(a) + F(b)
    decreases |b|
  {
    if |b| == 0 {
      assert a + b == a;
    } else {
      var init, x := b[..|b| - 1], b[|b| - 1];
      assert b == init + [x];
      assert a + b == (a + init) + [x];
      SnocBuiltAppend(F, f, a, init);
    }
  }

  /**
   * A list function built one element at a time that copies every element
   * satisfying `p` leaves a list of such elements unchanged.
   */
  lemma {:induction false} SnocBuiltFixes<A>(F: seq<A> -> seq<A>, p: A -> bool, c: seq<A>)
    requires F([]) == []
    requires forall d, x :: p(x) ==> F(d + [x]) == F(d) + [x]
    requires forall i :: 0 <= i < |c| ==> p(c[i])
    ensures F(c) == c
    decreases |c|
  {
    if |c| > 0 {
      var init, x := c[..|c| - 1], c[|c| - 1];
      assert c == init + [x];
      SnocBuiltFixes(F, p, init);
    }
  }
}

=== FILE: text.dfy ===
/**
 * The Python string operations the codec relies on: `str.split(sep)`,
 * `sep.join(parts)`, `str.strip()`, and ASCII `lower()`/`upper()`.
 */
module Text {
  import opened Results

  /** The characters Python's `str.isspace()` accepts, which `str.strip()` removes. */
  predicate IsSpace(c: char) {
    || c == ' '
    || ('\t' <= c <= '\r')
    || ('\U{1c}' <= c <= '\U{1f}')
    || c == '\U{85}' || c == '\U{a0}' || c == '\U{1680}'
    || ('\U{2000}' <= c <= '\U{200a}')
    || c == '\U{2028}' || c == '\U{2029}' || c == '\U{202f}' || c == '\U{205f}' || c == '\U{3000}'
  }

  /** `s` with its leading whitespace removed: a suffix of `s`. */
  function TrimStart(s: string): (r: string)
    ensures |r| <= |s| && r == s[|s| - |r|..]
    ensures forall i :: 0 <= i < |s| - |r| ==> IsSpace(s[i])
    ensures r == [] || !IsSpace(r[0])
    decreases |s|
  {
    if |s| > 0 && IsSpace(s[0]) then TrimStart(s[1..]) else s
  }

  /** `s` with its trailing whitespace removed: a prefix of `s`. */
  function TrimEnd(s: string): (r: string)
    ensures |r| <= |s| && r == s[..|r|]
    ensures forall i :: |r| <= i < |s| ==> IsSpace(s[i])
    ensures r == [] || !IsSpace(r[|r| - 1])
    decreases |s|
  {
    if |s| > 0 && IsSpace(s[|s| - 1]) then TrimEnd(s[..|s| - 1]) else s
  }

  /** Number of whitespace characters `str.strip()` removes from the front of `s`. */
  function LeadingSpace(s: string): nat
  {
    |s| - |TrimStart(s)|
  }

  /**
   * Python's `str.strip()`: the slice of `s` left after removing whitespace at
   * both ends; everything removed is whitespace and the result starts and ends
   * with a non-space character unless it is empty.
   */
  function Strip(s: string): (r: string)
    ensures LeadingSpace(s) + |r| <= |s|
    ensures r == s[LeadingSpace(s)..LeadingSpace(s) + |r|]
    ensures forall i :: 0 <= i < LeadingSpace(s) ==> IsSpace(s[i])
    ensures forall i :: LeadingSpace(s) + |r| <= i < |s| ==> IsSpace(s[i])
    ensures r == [] || (!IsSpace(r[0]) && !IsSpace(r[|r| - 1]))
  {
    TrimEnd(TrimStart(s))
  }

  /** A string is its own `strip()` exactly when it does not begin or end with whitespace. */
  lemma StripFixed(s: string)
    ensures Strip(s) == s <==> (s == [] || (!IsSpace(s[0]) && !IsSpace(s[|s| - 1])))
  {
    var r := Strip(s);
    if s == [] {
      assert |r| <= |s|;
    } else if r == s {
      assert !IsSpace(r[0]) && !IsSpace(r[|r| - 1]);
    } else if !IsSpace(s[0]) && !IsSpace(s[|s| - 1]) {
      TrimmedFixed(s);
    }
  }

  lemma TrimmedFixed(s: string)
    requires s != [] && !IsSpace(s[0]) && !IsSpace(s[|s| - 1])
    ensures Strip(s) == s
  {
    assert TrimStart(s) == s;
    assert TrimEnd(s) == s;
  }

  /** Stripping twice removes nothing more. */
  lemma StripIdempotent(s: string)
    ensures Strip(Strip(s)) == Strip(s)
  {
    StripFixed(Strip(s));
  }

  /** `pat` occurs in `s` starting at index `i`. */
  predicate OccursAt(s: string, pat: string, i: int) {
    0 <= i && i + |pat| <= |s| && s[i..i + |pat|] == pat
  }

  /** `pat` occurs somewhere in `s`. */
  predicate Occurs(s: string, pat: string) {
    exists i | 0 <= i <= |s| :: OccursAt(s, pat, i)
  }

  /** An occurrence past the first character is an occurrence in the tail, one index earlier. */
  lemma OccursShift(s: string, pat: string)
    requires |s| > 0
    ensures forall j :: 1 <= j ==> (OccursAt(s, pat, j) <==> OccursAt(s[1..], pat, j - 1))
  {
    forall j | 1 <= j
      ensures OccursAt(s, pat, j) <==> OccursAt(s[1..], pat, j - 1)
    {
      if j + |pat| <= |s| {
        assert s[1..][j - 1..j - 1 + |pat|] == s[j..j + |pat|];
      }
    }
  }

  /** Python's `s.find(pat)`: the first index at which `pat` occurs in `s`, if any. */
  function Find(s: string, pat: string): (r: Option<nat>)
    requires |pat| > 0
    ensures r.Some? ==> OccursAt(s, pat, r.value) && forall j :: 0 <= j < r.value ==> !OccursAt(s, pat, j)
    ensures r.None? ==> forall j :: !OccursAt(s, pat, j)
    ensures r.None? <==> !Occurs(s, pat)
    decreases |s|
  {
    if |s| < |pat| then None
    else if s[..|pat|] == pat then Some(0)
    else
      assert !OccursAt(s, pat, 0) by { assert s[0..|pat|] == s[..|pat|]; }
      OccursShift(s, pat);
      match Find(s[1..], pat)
      case None => None
      case Some(k) => Some(k + 1)
  }

  /** Python's `sep.join(parts)`. */
  function Join(parts: seq<string>, sep: string): string
    decreases |parts|
  {
    if |parts| == 0 then ""
    else if |parts| == 1 then parts[0]
    else parts[0] + sep + Join(parts[1..], sep)
  }

  /**
   * Python's `s.split(sep)` for a non-empty separator: cuts `s` at each
   * occurrence of `sep`, scanning left to right. The pieces never contain the
   * separator and joining them with it gives back `s`.
   */
  function Split(s: string, sep: string): (parts: seq<string>)
    requires |sep| > 0
    ensures |parts| >= 1
    ensures Join(parts, sep) == s
    ensures forall k :: 0 <= k < |parts| ==> !Occurs(parts[k], sep)
    ensures forall k :: 0 <= k < |parts| - 1 ==> Delimits(parts[k], sep)
    decreases |s|
  {
    match Find(s, sep)
    case None => [s]
    case Some(i) =>
      var head := s[..i];
      assert s == head + sep + s[i + |sep|..];
      assert !Occurs(head, sep) by {
        forall j | OccursAt(head, sep, j) ensures OccursAt(s, sep, j) {
          assert head[j..j + |sep|] == s[j..j + |sep|];
        }
      }
      var rest := Split(s[i + |sep|..], sep);
      FirstCutDelimits(s, sep, i);
      ConsDelimited(head, rest, sep);
      [head] + rest
  }

  /** A delimited piece in front of pieces delimited but for the last keeps them so. */
  lemma ConsDelimited(head: string, rest: seq<string>, sep: string)
    requires Delimits(head, sep)
    requires forall k :: 0 <= k < |rest| - 1 ==> Delimits(rest[k], sep)
    ensures forall k :: 0 <= k < |rest| ==> Delimits(([head] + rest)[k], sep)
  {
    forall k | 0 <= k < |rest| ensures Delimits(([head] + rest)[k], sep) {
      if k > 0 {
        assert ([head] + rest)[k] == rest[k - 1];
      }
    }
  }

  /**
   * The contract of `Split` determines it: the split of `s` is the one list of
   * pieces that joins back to `s`, whose last piece holds no separator and
   * whose other pieces are each cut at the separator's leftmost occurrence.
   */
  lemma SplitCharacterised(s: string, sep: string, parts: seq<string>)
    requires |sep| > 0
    ensures Split(s, sep) == parts <==>
      && |parts| >= 1
      && Join(parts, sep) == s
      && !Occurs(parts[|parts| - 1], sep)
      && forall k :: 0 <= k < |parts| - 1 ==> Delimits(parts[k], sep)
  {
    if && |parts| >= 1
       && Join(parts, sep) == s
       && !Occurs(parts[|parts| - 1], sep)
       && forall k :: 0 <= k < |parts| - 1 ==> Delimits(parts[k], sep)
    {
      SplitJoin(parts, sep);
    }
  }

  /** The text before the first occurrence of `sep` is delimited by it: the split cuts at the leftmost occurrence. */
  lemma FirstCutDelimits(s: string, sep: string, i: nat)
    requires OccursAt(s, sep, i)
    requires forall j :: 0 <= j < i ==> !OccursAt(s, sep, j)
    ensures Delimits(s[..i], sep)
  {
    var head := s[..i];
    var t := s[..i + |sep|];
    assert head + sep == t;
    forall j | 0 <= j < |head| ensures !OccursAt(t, sep, j) {
      assert !OccursAt(s, sep, j);
      assert j + |sep| <= |t|;
      assert t[j..j + |sep|] == s[j..j + |sep|];
    }
  }

  /**
   * `sep` written right after `p` is the first occurrence of `sep` in `p + sep`,
   * so a split cuts exactly at the end of `p`. For a one-character separator
   * this just says `p` does not contain it (`DelimitsSingle`).
   */
  predicate Delimits(p: string, sep: string) {
    forall j :: 0 <= j < |p| ==> !OccursAt(p + sep, sep, j)
  }

  lemma DelimitsSingle(p: string, sep: string)
    requires |sep| == 1
    ensures Delimits(p, sep) <==> sep[0] !in p
  {
    if sep[0] in p {
      var j :| 0 <= j < |p| && p[j] == sep[0];
      assert (p + sep)[j..j + 1] == sep;
      assert OccursAt(p + sep, sep, j);
    } else {
      forall j | 0 <= j < |p| ensures !OccursAt(p + sep, sep, j) {
        assert (p + sep)[j..j + 1][0] == p[j];
      }
    }
  }

  lemma OccursSingle(s: string, sep: string)
    requires |sep| == 1
    ensures Occurs(s, sep) <==> sep[0] in s
  {
    if sep[0] in s {
      var j :| 0 <= j < |s| && s[j] == sep[0];
      assert s[j..j + 1] == sep;
      assert OccursAt(s, sep, j);
    }
    forall j | OccursAt(s, sep, j) ensures sep[0] in s {
      assert s[j..j + 1][0] == s[j];
    }
  }

  /** A delimited piece followed by the separator is found exactly at its end. */
  lemma FindAfterDelimited(p: string, sep: string, rest: string)
    requires |sep| > 0 && Delimits(p, sep)
    ensures Find(p + sep + rest, sep) == Some(|p|)
  {
    var s := p + sep + rest;
    assert s[|p|..|p| + |sep|] == sep;
    assert OccursAt(s, sep, |p|);
    forall j | 0 <= j < |p| ensures !OccursAt(s, sep, j) {
      assert s[j..j + |sep|] == (p + sep)[j..j + |sep|];
      assert !OccursAt(p + sep, sep, j);
    }
  }

  /**
   * Splitting a join gives the parts back, provided every part but the last is
   * delimited by the separator and the last does not contain it.
   */
  lemma {:induction false} SplitJoin(parts: seq<string>, sep: string)
    requires |sep| > 0 && |parts| >= 1
    requires forall k :: 0 <= k < |parts| - 1 ==> Delimits(parts[k], sep)
    requires !Occurs(parts[|parts| - 1], sep)
    ensures Split(Join(parts, sep), sep) == parts
    decreases |parts|
  {
    if |parts| == 1 {
    } else {
      var rest := Join(parts[1..], sep);
      FindAfterDelimited(parts[0], sep, rest);
      assert (parts[0] + sep + rest)[|parts[0]| + |sep|..] == rest;
      SplitJoin(parts[1..], sep);
      assert parts == [parts[0]] + parts[1..];
    }
  }

  /** The first occurrence is characterised by occurring and having none before it. */
  lemma FindExactly(s: string, pat: string, i: nat)
    requires |pat| > 0 && OccursAt(s, pat, i)
    requires forall j :: 0 <= j < i ==> !OccursAt(s, pat, j)
    ensures Find(s, pat) == Some(i)
  {
  }

  /** Text appended after the first occurrence does not move it. */
  lemma {:induction false} FindExtend(s: string, pat: string, tail: string)
    requires |pat| > 0 && Find(s, pat).Some?
    ensures Find(s + tail, pat) == Find(s, pat)
  {
    var i := Find(s, pat).value;
    assert (s + tail)[i..i + |pat|] == s[i..i + |pat|];
    forall j | 0 <= j < i ensures !OccursAt(s + tail, pat, j) {
      assert (s + tail)[j..j + |pat|] == s[j..j + |pat|];
      assert !OccursAt(s, pat, j);
    }
    FindExactly(s + tail, pat, i);
  }

  /** Joining with one more part appends the separator and that part. */
  lemma {:induction false} JoinAppend(xs: seq<string>, y: string, sep: string)
    requires |xs| >= 1
    ensures Join(xs + [y], sep) == Join(xs, sep) + sep + y
    decreases |xs|
  {
    if |xs| > 1 {
      assert (xs + [y])[1..] == xs[1..] + [y];
      JoinAppend(xs[1..], y, sep);
    }
  }

  /**
   * Splitting `s` with one more one-character separator at the end adds one
   * empty piece.
   */
  lemma {:induction false} SplitAppendSeparator(s: string, sep: string)
    requires |sep| == 1
    ensures Split(s + sep, sep) == Split(s, sep) + [""]
    decreases |s|
  {
    var found := Find(s, sep);
    if found.None? {
      OccursSingle(s, sep);
      DelimitsSingle(s, sep);
      SplitAppendSeparatorLast(s, sep);
    } else {
      SplitAppendSeparator(s[found.value + |sep|..], sep);
      SplitAppendStep(s, sep);
    }
  }

  lemma {:induction false} SplitAppendStep(s: string, sep: string)
    requires |sep| > 0 && Find(s, sep).Some?
    requires var rest := s[Find(s, sep).value + |sep|..];
      Split(rest + sep, sep) == Split(rest, sep) + [""]
    ensures Split(s + sep, sep) == Split(s, sep) + [""]
  {
    var i := Find(s, sep).value;
    SplitStepWithSeparator(s, sep);
    ConsSnoc(s[..i], Split(s[i + |sep|..], sep), "");
  }

  lemma ConsSnoc(h: string, xs: seq<string>, e: string)
    ensures [h] + (xs + [e]) == ([h] + xs) + [e]
  {
  }

  lemma {:induction false} SplitStepWithSeparator(s: string, sep: string)
    requires |sep| > 0 && Find(s, sep).Some?
    ensures var i := Find(s, sep).value;
      && Split(s, sep) == [s[..i]] + Split(s[i + |sep|..], sep)
      && Split(s + sep, sep) == [s[..i]] + Split(s[i + |sep|..] + sep, sep)
  {
    var i := Find(s, sep).value;
    var head, rest := s[..i], s[i + |sep|..];
    FindExtend(s, sep, sep);
    SliceAppended(s, sep, i);
    SplitAt(s, sep, i, head, rest);
    SplitAt(s + sep, sep, i, head, rest + sep);
  }

  /** Split cuts at the first occurrence of the separator. */
  lemma SplitAt(s: string, sep: string, i: nat, head: string, rest: string)
    requires |sep| > 0 && Find(s, sep) == Some(i)
    requires s[..i] == head && s[i + |sep|..] == rest
    ensures Split(s, sep) == [head] + Split(rest, sep)
  {
    assert Split(s, sep) == [s[..i]] + Split(s[i + |sep|..], sep);
  }

  /** Appending `tail` keeps the slice before `i` and extends the slice after `i + |tail|` by `tail`. */
  lemma SliceAppended(s: string, tail: string, i: nat)
    requires i + |tail| <= |s|
    ensures (s + tail)[..i] == s[..i]
    ensures (s + tail)[i + |tail|..] == s[i + |tail|..] + tail
  {
  }

  lemma {:induction false} SplitAppendSeparatorLast(s: string, sep: string)
    requires |sep| > 0 && Find(s, sep).None? && Delimits(s, sep)
    ensures Split(s + sep, sep) == [s, ""]
  {
    FindAfterDelimited(s, sep, "");
    assert s + sep + "" == s + sep;
    assert (s + sep)[|s| + |sep|..] == "";
    assert (s + sep)[..|s|] == s;
  }

  /** ASCII `str.lower()` of one character. */
  function LowerChar(c: char): char {
    if 'A' <= c <= 'Z' then (c as int + 32) as char else c
  }

  /** ASCII `str.upper()` of one character. */
  function UpperChar(c: char): char {
    if 'a' <= c <= 'z' then (c as int - 32) as char else c
  }

  /** `str.lower()` on the ASCII letters; every other character is kept. */
  function Lower(s: string): (r: string)
    ensures |r| == |s|
    ensures forall i :: 0 <= i < |s| ==> r[i] == LowerChar(s[i])
  {
    seq(|s|, i requires 0 <= i < |s| => LowerChar(s[i]))
  }

  /** `str.upper()` on the ASCII letters; every other character is kept. */
  function Upper(s: string): (r: string)
    ensures |r| == |s|
    ensures forall i :: 0 <= i < |s| ==> r[i] == UpperChar(s[i])
  {
    seq(|s|, i requires 0 <= i < |s| => UpperChar(s[i]))
  }
}
